=== FILE: README.md ===
# elf4j engine core: pattern elements, logger cache, service registry

A Dafny model of the core of the elf4j logging engine (elf4j-impl-core).
It covers three parts.

- **Pattern elements.** Each element is read from a pattern segment with `from`. It then appends its
  text to the log line with `render`.
  - `VerbatimElement` appends literal text.
  - `ContextElement` appends the value the thread's context map (MDC) holds for a key.
  - `ThreadElement` appends the calling thread's id or name.
  - The JSON output exists in three generations: `JsonElement`, `JsonPattern` and
    `JsonPatternSegment`. They share the display-option grammar: a comma-separated subset of
    `caller-thread`, `caller-detail` and `pretty`. They differ in three ways: whether `from` checks
    that the segment is of JSON type, whether the record has a `context` member, and how the
    exception is carried.
  - A log pattern renders its elements one after the other into the same target.
- **The logger cache of `NativeLoggerFactory`.** This is one map per level, from declaring class
  name to logger, filled on demand. The log service behind it is rebuilt on refresh.
- **`LogServiceManager`.** This is the set-based registry of refreshable and stoppable
  participants. It holds the refresh broadcast and the shutdown sequence: stop every processor,
  then wait until all report stopped.

Everything is modelled as immutable values and pure functions. Java exceptions become the
`Failure` case of `Wrappers.Result`, with an `Errors.Error` telling which exception it is. `render`
into a `StringBuilder` becomes a function from the target text to the new text. The factory and
the registry are values, and an operation that changes them returns the new value. Object
identity, where it matters, is a serial number.

Files:

| file | module | models |
|---|---|---|
| wrappers.dfy | `Wrappers`, `Errors` | `Option`, `Result`; the exceptions the core throws |
| events.dfy | `Events` | `Level`, the log event and its thread, frame and throwable values |
| text.dfy | `Text` | `String.trim`, `String.split(",")`, `toUpperCase`, `Long.toString` |
| utf8.dfy | `Utf8` | UTF-8 encoding and decoding of the serialised JSON |
| json_options.dfy | `JsonOptions`, `JsonFields` | the shared display-option grammar; the JSON member names |
| verbatim_element.dfy | `VerbatimElements` | `VerbatimElement` |
| context_element.dfy | `ContextElements` | `ContextElement` |
| thread_element.dfy | `ThreadElements` | `ThreadElement` |
| json_element.dfy | `JsonElements` | `JsonElement` and its `JsonLogEntry` |
| json_pattern.dfy | `JsonPatterns` | `JsonPattern`, its writer, and its `JsonLogEntry` |
| json_pattern_segment.dfy | `JsonPatternSegments` | `JsonPatternSegment` and its `JsonLogEntry` |
| log_pattern.dfy | `LogPatterns` | rendering a list of elements in order |
| native_logger_factory.dfy | `NativeLoggerFactories` | `NativeLoggerFactory`, `ConfiguredLogServiceFactory` |
| log_service_manager.dfy | `LogServiceManagers` | `LogServiceManager` |

Modelling choices that a reader of the Java should know:

- **`split(",")`.** `Text.JavaSplit` keeps Java's rule: a string without a comma is one piece,
  and trailing empty pieces are dropped. So `"pretty,"` parses like `"pretty"`. A trailing
  `", "`, however, leaves the piece `" "`, which trims to `""` and is rejected.
- **`trim`.** It removes characters up to U+0020 at both ends.
- **Unknown option names.** They are reported with the whole trimmed option set, as the
  exception message does.
- **Display options.** The helpers that recognise a segment's type and extract its display
  option are not part of this model. `from` receives the option as an `Option<string>`.
- **Segment type.** For the two generations that check the segment type, `from` receives a
  `Segment` record. It holds the text, whether it is a JSON segment, and the extracted option.
- **Serialisers and pretty-printing.** DslJson and Jackson are function parameters: a record
  goes in and JSON text comes out. The Jackson one returns `None` for an I/O failure. The
  prettifying stream is a byte-to-byte parameter.
- **Null members.** Which members a serialiser writes is stated as the set of non-null members
  of the record (`PresentFields`). Both serialisers are configured to leave nulls out.
- **`JsonElement` and the caller frame.** With `caller-detail` on, `JsonElement` needs the event
  to carry its caller frame (`Objects.requireNonNull`). Otherwise it fails with a
  `NullPointer` error. `JsonPattern` and `JsonPatternSegment` copy the frame as they find it.
- **Participants that throw.** What a refreshable or stoppable does is outside the manager. Each
  broadcast and `shutdown` takes the set of participants whose call throws. The `forEach` loops
  stop at the first of them in iteration order, and the model returns that participant as the
  exception that escapes.
- **`refresh(properties)` with `null`.** The Javadoc of `LogServiceManager.refresh(properties)`
  says a `null` argument reloads the original properties source. The code passes `null` through
  to each refreshable. `NativeLoggerFactory` then calls `reset(null)`, which builds the service
  from `LogServiceConfiguration.bySetting(null)`. The model follows the code:
  `Reset(None)` yields a service configured by `Setting(None)`, not a `Loaded` one.

## Model

| member | source | states |
|---|---|---|
| VerbatimElements.From | src/main/java/elf4j/engine/service/pattern/VerbatimElement.java:43-45 | the element's text is exactly the pattern segment |
| VerbatimElements.IncludeCallerDetail | src/main/java/elf4j/engine/service/pattern/VerbatimElement.java:48-50 | a verbatim element never asks for the caller frame |
| VerbatimElements.Render | src/main/java/elf4j/engine/service/pattern/VerbatimElement.java:53-55 | the target is kept as a prefix and exactly the element's text follows it |
| VerbatimElements.RenderFromRoundTrip | src/main/java/elf4j/engine/service/pattern/VerbatimElement.java:43-55 | rendering the element read from a segment appends that segment |
| VerbatimElements.RenderIgnoresEvent | src/main/java/elf4j/engine/service/pattern/VerbatimElement.java:53-55 | any two events render identically |
| VerbatimElements.RenderTwice | src/main/java/elf4j/engine/service/pattern/VerbatimElement.java:34-55 | the element is immutable: rendering twice appends its text twice |
| ContextElements.From | src/main/java/elf4j/engine/service/pattern/ContextElement.java:42-45 | succeeds iff there is a display option, and the key is that option; without one it fails with NoSuchElementException and its message |
| ContextElements.IncludeCallerDetail | src/main/java/elf4j/engine/service/pattern/ContextElement.java:30-33 | a context element never asks for the caller frame |
| ContextElements.Render | src/main/java/elf4j/engine/service/pattern/ContextElement.java:55-58 | keeps the target; appends the key's value when the context holds one, and nothing otherwise |
| ContextElements.RenderFromKey | src/main/java/elf4j/engine/service/pattern/ContextElement.java:42-58 | an element read from option `key` appends the value stored under `key`, appends nothing once `key` is removed, and ignores the event |
| ThreadElements.ValueOf | src/main/java/elf4j/engine/service/pattern/ThreadElement.java:62-65 | `DisplayOption.valueOf`: exactly `ID` and `NAME` are constants; anything else fails naming the string |
| ThreadElements.FromInLocale | src/main/java/elf4j/engine/service/pattern/ThreadElement.java:44-48 | as written: no option gives NAME; ID iff the option upper-cased in the default locale is `ID`, NAME iff it is `NAME`; otherwise a failure naming the upper-cased text |
| ThreadElements.TurkicLocaleRejectsId | src/main/java/elf4j/engine/service/pattern/ThreadElement.java:46 | under a Turkic default locale the documented option `id` is rejected, as `İD` |
| ThreadElements.From | src/main/java/elf4j/engine/service/pattern/ThreadElement.java:44-48 | no option gives NAME; ID iff the option spells `id` in any letter case; NAME iff it spells `name`; every other option fails |
| ThreadElements.FromAgreesInRootLocale | src/main/java/elf4j/engine/service/pattern/ThreadElement.java:46 | `From` is defined as the code as written run in the root locale; this lemma records that definition, and the any-case meaning comes from `From`'s own contract |
| ThreadElements.IncludeCallerDetail | src/main/java/elf4j/engine/service/pattern/ThreadElement.java:50-53 | a thread element never asks for the caller frame |
| ThreadElements.Render | src/main/java/elf4j/engine/service/pattern/ThreadElement.java:55-60 | fails with a null-pointer error iff the event has no caller thread; otherwise keeps the target and appends the id as a canonical decimal (no leading zeros, no `-0`) that parses back to it (ID), or the name (NAME) |
| Text.Trim | src/main/java/elf4j/engine/service/pattern/JsonElement.java:83 | the result neither starts nor ends with a character up to U+0020; an untrimmed string is unchanged; an all-space string becomes empty |
| Text.TrimKeepsMiddle | src/main/java/elf4j/engine/service/pattern/JsonElement.java:83 | the input is the trimmed text with only space characters before and after it |
| Text.JavaSplit | src/main/java/elf4j/engine/service/pattern/JsonElement.java:83 | pieces are comma-free; no comma gives the whole string; otherwise a prefix of the comma pieces ending in a non-empty piece, where every piece dropped is empty |
| Text.JoinPieces | src/main/java/elf4j/engine/service/pattern/JsonElement.java:83 | joining the comma pieces of a string with commas gives the string back |
| Text.PiecesJoin | src/main/java/elf4j/engine/service/pattern/JsonElement.java:83 | splitting comma-free pieces joined with commas gives the pieces back |
| Text.UpperCaseMatches | src/main/java/elf4j/engine/service/pattern/ThreadElement.java:46 | in the root locale, a string upper-cases to an upper-case word iff it spells that word in some letter case |
| Text.DecimalRoundTrip | src/main/java/elf4j/engine/service/pattern/ThreadElement.java:59 | the decimal digits of a number read back as that number |
| Text.LongToDecimal | src/main/java/elf4j/engine/service/pattern/ThreadElement.java:59 | `Long.toString` yields a decimal numeral that parses back to the value, with no leading zeros and no `-0` |
| Text.LongToDecimalUnique | src/main/java/elf4j/engine/service/pattern/ThreadElement.java:59 | any canonical decimal that parses to a value is exactly the `Long.toString` text of that value |
| JsonOptions.Parse | src/main/java/elf4j/engine/service/pattern/JsonElement.java:77-92 | no option gives all flags off; succeeds iff every trimmed name is recognised; each flag iff its name was given; a failure carries the option set |
| JsonOptions.JavaSplitOfJoin | src/main/java/elf4j/engine/service/pattern/JsonElement.java:83 | `split(",")` of comma-joined non-blank names gives the names back |
| JsonOptions.ParseJoined | src/main/java/elf4j/engine/service/pattern/JsonElement.java:82-91 | names joined with commas parse to the set of the trimmed names |
| JsonOptions.ParseRecognised | src/main/java/elf4j/engine/service/pattern/JsonElement.java:82-91 | recognised names joined with commas parse successfully, each flag on iff its name is among them |
| JsonOptions.ParseWithPretty | src/main/java/elf4j/engine/service/pattern/JsonElement.java:82-91 | appending `pretty` to recognised options turns the pretty flag on and leaves the other two as they were |
| JsonOptions.ParseIgnoresOrderAndRepetition | src/main/java/elf4j/engine/service/pattern/JsonElement.java:82-83 | two option lists with the same set of trimmed names parse alike, whatever their order and repetitions |
| JsonOptions.RejectedByUnknownName | src/main/java/elf4j/engine/service/pattern/JsonElement.java:84-86 | one unrecognised name rejects the whole option, reporting the option set |
| JsonOptions.UnknownOptionRejected | src/main/java/elf4j/engine/service/pattern/JsonElement.java:62-86 | a known name followed by an unknown one is rejected with both names |
| JsonOptions.RecognisedNameIsClean | src/main/java/elf4j/engine/service/pattern/JsonElement.java:59-64 | the three recognised names are comma-free and untrimmed |
| JsonOptions.TrailingCommaIgnored | src/main/java/elf4j/engine/service/pattern/JsonElement.java:83 | a trailing comma does not change the parse |
| JsonOptions.TrailingBlankPieceRejected | src/main/java/elf4j/engine/service/pattern/JsonElement.java:83-86 | a trailing `", "` adds the empty name, so the option is rejected |
| JsonElements.From | src/main/java/elf4j/engine/service/pattern/JsonElement.java:77-92 | no option gives all flags off; succeeds iff every name is recognised; each flag iff its name was given; otherwise IllegalArgumentException with the set |
| JsonElements.IncludeCallerDetailFromOptions | src/main/java/elf4j/engine/service/pattern/JsonElement.java:94-97 | `includeCallerDetail` answers whether `caller-detail` was among the options |
| JsonElements.EntryFrom | src/main/java/elf4j/engine/service/pattern/JsonElement.java:124-141 | fails iff caller detail is on and the event has no caller frame; the caller class iff caller detail is off; the frame iff it is on; the thread iff asked for; context is the MDC; exception iff a throwable, as its trace |
| JsonElements.EntryShape | src/main/java/elf4j/engine/service/pattern/JsonElement.java:111-141 | the written members: always timestamp, level and message; exactly one of callerClass and callerDetail; callerThread, context and exception exactly when present |
| JsonElements.Render | src/main/java/elf4j/engine/service/pattern/JsonElement.java:99-109 | fails iff the record cannot be built; otherwise keeps the target and appends exactly the serialised JSON text, decoded back from its UTF-8 bytes |
| Utf8.DecodeEncode | src/main/java/elf4j/engine/service/pattern/JsonElement.java:104-105 | decoding the UTF-8 encoding of any text gives the text back |
| Utf8.EncodeAscii | src/main/java/elf4j/engine/service/pattern/JsonPattern.java:128-137 | ASCII text encodes one byte per character, each byte the character's code |
| Utf8.EncodeNonAsciiLonger | src/main/java/elf4j/engine/service/pattern/JsonPattern.java:128-137 | text with a non-ASCII character encodes to more bytes than it has characters |
| JsonPatterns.From | src/main/java/elf4j/engine/service/pattern/JsonPattern.java:73-91 | a non-JSON segment is rejected; no option gives all flags off; succeeds iff every name is recognised; each flag iff its name was given |
| JsonPatterns.AccessorsFromOptions | src/main/java/elf4j/engine/service/pattern/JsonPattern.java:93-101 | the accessors answer whether `caller-detail` and `caller-thread` were among the options |
| JsonPatterns.EntryFrom | src/main/java/elf4j/engine/service/pattern/JsonPattern.java:153-164 | the caller class iff caller detail is off; the frame as the event has it iff it is on; the thread iff asked for; exception iff a throwable, as its trace |
| JsonPatterns.EntryShape | src/main/java/elf4j/engine/service/pattern/JsonPattern.java:144-164 | the written members: never a context, never both callerClass and callerDetail, callerThread and exception exactly when present |
| JsonPatterns.CastChar | src/main/java/elf4j/engine/service/pattern/JsonPattern.java:128-131 | the `(char)` cast of a signed byte: the byte's two's-complement value (`SignedValue`) taken modulo 2^16 |
| JsonPatterns.CastChars | src/main/java/elf4j/engine/service/pattern/JsonPattern.java:133-138 | one character per byte, each the cast of that byte |
| JsonPatterns.RenderToAsWritten | src/main/java/elf4j/engine/service/pattern/JsonPattern.java:103-113 | as written: the target is kept and the writer is reset after the render |
| JsonPatterns.CastGarblesEAcute | src/main/java/elf4j/engine/service/pattern/JsonPattern.java:128-137 | `é` is written as bytes C3 A9 and appended as U+FFC3 U+FFA9 |
| JsonPatterns.AsWrittenGarblesNonAscii | src/main/java/elf4j/engine/service/pattern/JsonPattern.java:104-138 | as written, JSON text with any non-ASCII character is not what gets appended |
| JsonPatterns.AsWrittenAgreesOnAscii | src/main/java/elf4j/engine/service/pattern/JsonPattern.java:104-138 | as written, ASCII JSON text is appended unchanged |
| JsonPatterns.RenderTo | src/main/java/elf4j/engine/service/pattern/JsonPattern.java:103-119 | the writer is reset; the target is kept; from a fresh writer exactly the JSON text is appended |
| JsonPatterns.SuccessiveRendersIndependent | src/main/java/elf4j/engine/service/pattern/JsonPattern.java:104-113 | two renders in a row append the two records' texts in order, and nothing from the first leaks into the second |
| JsonPatternSegments.From | src/main/java/elf4j/engine/writer/pattern/JsonPatternSegment.java:65-90 | a non-JSON segment is rejected; no option gives both flags off and no indentation; succeeds iff every name is recognised; each flag iff its name was given; `pretty` iff indentation |
| JsonPatternSegments.AccessorsFromOptions | src/main/java/elf4j/engine/writer/pattern/JsonPatternSegment.java:92-100 | the accessors answer whether `caller-detail` and `caller-thread` were among the options; `pretty` shows only in the mapper |
| JsonPatternSegments.PrettyOnlyIndents | src/main/java/elf4j/engine/writer/pattern/JsonPatternSegment.java:84-89 | appending `pretty` to recognised options switches indentation on and leaves both flags as they were |
| JsonPatternSegments.EntryFrom | src/main/java/elf4j/engine/writer/pattern/JsonPatternSegment.java:126-136 | the caller class iff caller detail is off; the frame iff it is on; the thread iff asked for; the exception passed through unchanged |
| JsonPatternSegments.EntryShape | src/main/java/elf4j/engine/writer/pattern/JsonPatternSegment.java:113-136 | the written members: never a context, never both callerClass and callerDetail, exception exactly when something was thrown |
| JsonPatternSegments.Render | src/main/java/elf4j/engine/writer/pattern/JsonPatternSegment.java:102-111 | fails with UncheckedIOException iff the mapper fails; otherwise keeps the target and appends exactly the mapper's text |
| LogPatterns.RenderAll | src/test/java/elf4j/engine/service/pattern/PatternGroupTest.java:56-65 | the elements render in list order: the result is the target followed by every element's text in order, or the first element's failure |
| LogPatterns.TwoElementsInOrder | src/test/java/elf4j/engine/service/pattern/PatternGroupTest.java:56-65 | with two elements, the first-listed element's text comes first |
| NativeLoggerFactories.Create | src/main/java/elf4j/engine/NativeLoggerFactory.java:57-58 | a new factory has an empty cache map for every level |
| NativeLoggerFactories.WithServiceAccessClass | src/main/java/elf4j/engine/NativeLoggerFactory.java:85-87 | default level INFO, the given access class, a service built by loading, empty caches |
| NativeLoggerFactories.Default | src/main/java/elf4j/engine/NativeLoggerFactory.java:77-79 | default level INFO and `Logger` as the access class |
| NativeLoggerFactories.PublicConstructorsLogAtInfo | src/main/java/elf4j/engine/NativeLoggerFactory.java:50-87 | a factory from either public constructor hands out INFO loggers |
| NativeLoggerFactories.GetLogger | src/main/java/elf4j/engine/NativeLoggerFactory.java:126-128 | the logger has the requested name and level and is cached; a hit returns the cached logger and leaves the factory unchanged; a miss makes a new logger; every other entry is kept and none is added |
| NativeLoggerFactories.GetLoggerIdempotent | src/main/java/elf4j/engine/NativeLoggerFactory.java:126-128 | asking twice gives the same logger, and the second call changes nothing |
| NativeLoggerFactories.LevelsKeepSeparateLoggers | src/main/java/elf4j/engine/NativeLoggerFactory.java:126-128 | one name at two levels gives two different loggers, both cached |
| NativeLoggerFactories.Logger | src/main/java/elf4j/engine/NativeLoggerFactory.java:105-109 | `logger()` gives the default level's logger for the caller class, and caches it |
| NativeLoggerFactories.NewConfiguredLogServiceFactory | src/main/java/elf4j/engine/NativeLoggerFactory.java:141-143 | the first service is built by loading |
| NativeLoggerFactories.Reload | src/main/java/elf4j/engine/NativeLoggerFactory.java:150-153 | `reload` installs a new service built by loading |
| NativeLoggerFactories.Reset | src/main/java/elf4j/engine/NativeLoggerFactory.java:155-158 | `reset` installs a new service built from the given properties |
| NativeLoggerFactories.Refresh | src/main/java/elf4j/engine/NativeLoggerFactory.java:111-119 | `refresh()` loads a new service; `refresh(properties)` sets one from the properties; the cache and defaults are untouched |
| NativeLoggerFactories.RefreshKeepsLoggers | src/main/java/elf4j/engine/NativeLoggerFactory.java:111-128 | a logger handed out before a refresh is the one handed out after it |
| LogServiceManagers.RegisterRefresh | src/main/java/elf4j/engine/service/LogServiceManager.java:55-57 | the participant becomes a refreshable; no other membership changes; the stoppables are untouched |
| LogServiceManagers.RegisterStop | src/main/java/elf4j/engine/service/LogServiceManager.java:63-65 | the participant becomes a stoppable; no other membership changes; the refreshables are untouched |
| LogServiceManagers.RegisterIdempotent | src/main/java/elf4j/engine/service/LogServiceManager.java:47-65 | registering a participant already registered changes nothing |
| LogServiceManagers.RegistriesIndependent | src/main/java/elf4j/engine/service/LogServiceManager.java:47-65 | the two registrations commute, and each shows only in its own set |
| LogServiceManagers.Broadcast | src/main/java/elf4j/engine/service/LogServiceManager.java:72 | the `forEach` stops at the first target that throws, and that exception escapes; it stops early iff some target throws; each target receives the call once or not at all, and all do when nothing is thrown; no other participant receives anything |
| LogServiceManagers.Refresh | src/main/java/elf4j/engine/service/LogServiceManager.java:70-74 | the registered refreshables receive `refresh()` until one throws, whose exception escapes; if none throws, each receives exactly one call; nobody else receives anything; no processor changes |
| LogServiceManagers.RefreshWith | src/main/java/elf4j/engine/service/LogServiceManager.java:81-85 | as `Refresh`, with `refresh(properties)` and the same value for every refreshable reached |
| LogServiceManagers.StopAll | src/main/java/elf4j/engine/service/LogServiceManager.java:92 | the registered stoppables are asked to stop, each at most once, until one throws; if none throws, every one is asked; a stoppable not asked, and the thrower, are unchanged; no one else is touched |
| LogServiceManagers.AwaitStopped | src/main/java/elf4j/engine/service/LogServiceManager.java:94 | polling a stopping processor returns once it reports stopped; no other processor changes |
| LogServiceManagers.AwaitAll | src/main/java/elf4j/engine/service/LogServiceManager.java:94 | the wait returns only when every stoppable reports stopped, and only polls |
| LogServiceManagers.Shutdown | src/main/java/elf4j/engine/service/LogServiceManager.java:90-97 | each registered stoppable gets `stop` at most once, and every stop comes before any poll; if no `stop` throws, all report stopped on return; if one throws, its exception escapes before any poll, the stoppables asked before it have only their stop requested, and the thrower and those never asked are unchanged; unregistered processors and the refreshables are untouched |

## Left out

- **Timestamps.** `OffsetDateTime`, `ZoneId` and `DateTimeFormatter` are time-zone library code. A
  timestamp is an abstract integer copied into the record.
- **The JSON serialisers.** DslJson (`serialize`, `JsonWriter`, `PrettifyOutputStream`) and
  Jackson's `ObjectMapper.writeValue` are foreign libraries. They are function parameters, so
  the exact JSON text, indentation and default-value rules are not modelled.
- **The MDC.** It is a thread-local store. The context map is an input.
- **Helpers whose source is not part of this model.** `PatternElements.getPatternElementDisplayOption`,
  `PatternType`, `PatternSegmentType`, `StackTraces` / `StackTraceUtils` (trace rendering and
  `callerOf`), and message resolution are not part of this model. Their results are inputs: the
  display option, the segment's JSON flag, the throwable's trace text, and the caller class name
  `logger()` uses.
- **The class behind the pattern test.** The class that `PatternGroupTest` exercises is not part
  of this model. `LogPatterns` states only the in-order rendering that test checks.
- **`EventingLogService` and configuration loading.** Both are I/O. A service is a token that
  records where its configuration came from and its identity.
- **The `LogServiceFactory` interface.** Only the configured implementation is modelled, since it
  is the one the public constructors install. The package-private constructor accepts one with
  the same shape.
- **`getLogService`.** It returns the factory's current service and has no contract of its own.
- **Registration of the factory.** `LogServiceManager.INSTANCE.register(this)`
  (NativeLoggerFactory.java:96) does not match the registry's `registerRefresh`/`registerStop`
  methods, so the factory and the registry are not wired together. The factory's `Refresh` takes
  the registry's `Call`, so it is what a refreshable does with a broadcast.
- **Diagnostics.** The `IeLogger` messages carry no behaviour.
- **Awaitility and the shutdown hook.** The forever-poll of Awaitility, `getShutdownHookThread` and
  concurrency are not modelled.
- LogServiceManagers.AwaitStopped: how a processor drains its queue is not part of this model. Each
  poll that finds it busy is taken to let it write one queued event, so the wait ends. The source
  waits forever on a processor that never finishes.
- JsonPatterns.RenderTo: `PrettifyOutputStream` is a byte-to-byte parameter, so exactly which text
  is appended is stated only for unprettified output from a fresh writer. An exception from
  `serializeObject`, which runs before the `try`, would skip the writer's reset. The serialiser
  parameter is total, so that path is not modelled. An `IOException` from the appending stream
  cannot occur.
- JsonPatterns.AsWrittenGarblesNonAscii: stated for unprettified output only, for the same
  reason.
- JsonPatterns.SuccessiveRendersIndependent: stated for unprettified output only, for the same
  reason.
- JsonElements.Render: an `IOException` from a `ByteArrayOutputStream` cannot occur, so the
  `UncheckedIOException` path of `JsonElement.render` is not modelled. The prettifier is left
  out: the appended text is the serialiser's output for the pretty flag.
- **UTF-8 decoding of malformed bytes.** `Utf8.Decode` replaces one byte at a time by U+FFFD. Java's
  decoder may replace a maximal ill-formed subsequence by a single U+FFFD. `Utf8.Decode` also
  accepts overlong forms (C0 80 reads as U+0000), which Java's decoder rejects. Both matter only
  for bytes the serialiser never writes.
- **Case mapping.** `Text.ToUpper` maps ASCII letters, and the dotless and dotted `i` in the Turkic
  locales. Other Unicode case mappings, such as `ß` → `SS`, are not modelled.
- ThreadElements.FromInLocale: the Lithuanian locale is not modelled. In Java's `lt` locale,
  upper-casing removes a combining dot above (U+0307) that follows an `i`. Under that default
  locale the option `i` U+0307 `d` becomes `ID` and is accepted, while `ThreadElements.From`
  refuses it. `Text.Locale` has only the root and Turkic rules.
- **`Level`.** The `Level` enum belongs to the elf4j API. It is modelled as its six constants.
- **`IntegrationTest`.** It needs the real logging runtime.

## Findings

| source | as written | input that shows it | evidently intended | confidence | as-written member | corrected member |
|---|---|---|---|---|---|---|
| src/main/java/elf4j/engine/service/pattern/ThreadElement.java:46 | `displayOption.toUpperCase()` upper-cases with the JVM's default locale | default locale `tr`, pattern option `id`: the text becomes `İD`, and `DisplayOption.valueOf` throws | `id` and `name` are accepted in any letter case in every locale (upper-casing with `Locale.ROOT`) | high, not executed | ThreadElements.FromInLocale | ThreadElements.From |
| src/main/java/elf4j/engine/service/pattern/JsonPattern.java:128-137 | `AppendingOutputStream` appends each UTF-8 byte as a `char` through a signed cast | a message `é`: DslJson writes bytes C3 A9, and the target receives U+FFC3 U+FFA9 | the target receives the JSON text, with the bytes decoded as UTF-8 as `JsonElement` does | medium, not executed | JsonPatterns.AsWrittenGarblesNonAscii | JsonPatterns.RenderTo |

=== FILE: context_element.dfy ===
/** `ContextElement`: the value the thread's mapped diagnostic context (MDC)
    holds for a configured key. The MDC is a thread-local store; here it is an
    input, `None` when the thread has no context map at all. */
module ContextElements {
  import opened Wrappers
  import opened Errors
  import opened Events

  datatype ContextElement = ContextElement(key: string)

  const NoKeyMessage: string := "No key configured in 'context' pattern element"

  /** `from`: the display option is the key; without one there is no key to
      look up and `from` throws. */
  function From(displayOption: Option<string>): (r: Result<ContextElement, Error>)
    ensures r.Success? <==> displayOption.Some?
    ensures r.Success? ==> r.value.key == displayOption.value
    ensures r.Failure? ==> r.error == NoSuchElement(NoKeyMessage)
  {
    match displayOption
    case Some(key) => Success(ContextElement(key))
    case None => Failure(NoSuchElement(NoKeyMessage))
  }

  /** The context value never needs the caller's stack frame. */
  function IncludeCallerDetail(e: ContextElement): (r: bool)
    ensures !r
  {
    false
  }

  /** `MDC.get(key)`: the value, or nothing when the key or the whole map is missing. */
  function Lookup(mdc: Option<map<string, string>>, key: string): Option<string> {
    if mdc.Some? && key in mdc.value then Some(mdc.value[key]) else None
  }

  /** `render`: appends the key's context value, or the empty string when there
      is none, so a missing key leaves the target unchanged. */
  function Render(e: ContextElement, event: LogEvent, mdc: Option<map<string, string>>, target: string): (r: string)
    ensures |target| <= |r| && r[..|target|] == target
    ensures mdc.Some? && e.key in mdc.value ==> r[|target|..] == mdc.value[e.key]
    ensures !(mdc.Some? && e.key in mdc.value) ==> r == target
  {
    target + Lookup(mdc, e.key).GetOr("")
  }

  /** An element read from option `key` renders exactly what the context holds
      for that key, whatever the event. */
  lemma RenderFromKey(key: string, value: string, others: map<string, string>, a: LogEvent, b: LogEvent, target: string)
    ensures From(Some(key)).Success?
    ensures Render(From(Some(key)).value, a, Some(others[key := value]), target) == target + value
    ensures Render(From(Some(key)).value, a, Some(others - {key}), target) == target
    ensures Render(From(Some(key)).value, a, Some(others), target) == Render(From(Some(key)).value, b, Some(others), target)
  {
  }
}

=== FILE: events.dfy ===
/** The log event the pattern elements read, and the logger severity levels.

    The repository has two generations of the event record (`LogEvent` and
    `LogEntry`); they expose the same accessors under slightly different names,
    so one datatype serves both here. */
module Events {
  import opened Wrappers

  /** `elf4j.Level`; `Name` is the enum constant's `name()`. */
  datatype Level = TRACE | DEBUG | INFO | WARN | ERROR | OFF {
    function Name(): string {
      match this
      case TRACE => "TRACE"
      case DEBUG => "DEBUG"
      case INFO => "INFO"
      case WARN => "WARN"
      case ERROR => "ERROR"
      case OFF => "OFF"
    }
  }

  /** A Java `long`. */
  newtype Long = x: int | -0x8000_0000_0000_0000 <= x < 0x8000_0000_0000_0000

  /** The calling thread: `ThreadValue` / `ThreadInformation`. */
  datatype ThreadValue = ThreadValue(name: string, id: Long)

  /** The resolved caller frame: `StackFrameValue` / `StackTraceFrame`. */
  datatype StackFrame = StackFrame(className: string, methodName: string, fileName: string, lineNumber: int)

  /** A logged throwable; `trace` is the text the stack-trace helper renders for it. */
  datatype Throwable = Throwable(className: string, message: string, trace: string)

  /** One log call. `timestamp` is the instant in an abstract unit; the nullable
      accessors of the Java record are `Option`s. */
  datatype LogEvent = LogEvent(
    timestamp: int,
    level: Level,
    callerThread: Option<ThreadValue>,
    callerClassName: string,
    callerFrame: Option<StackFrame>,
    resolvedMessage: string,
    throwable: Option<Throwable>
  )
}

=== FILE: json_element.dfy ===
/** `JsonElement`: the whole log event as one JSON object, the pattern-element
    generation of the JSON output. Serialisation itself (DslJson, with
    `PrettifyOutputStream` when pretty-printing) is a parameter: a function from
    the record and the pretty flag to the JSON text. */
module JsonElements {
  import opened Wrappers
  import opened Errors
  import opened Events
  import opened JsonOptions
  import opened Text
  import JsonFields
  import Utf8

  datatype JsonElement = JsonElement(includeCallerThread: bool, includeCallerDetail: bool, prettyPrint: bool)

  /** `from`: no display option leaves every flag off; otherwise the option is
      split on commas and trimmed, every name must be recognised, and each flag
      is on exactly when its name was given. */
  function From(displayOption: Option<string>): (r: Result<JsonElement, Error>)
    ensures displayOption.None? ==> r == Success(JsonElement(false, false, false))
    ensures displayOption.Some? ==>
              (r.Success? <==> OptionSet(displayOption.value) <= DisplayOptions)
    ensures r.Success? && displayOption.Some? ==>
              && (r.value.includeCallerThread <==> CallerThread in OptionSet(displayOption.value))
              && (r.value.includeCallerDetail <==> CallerDetail in OptionSet(displayOption.value))
              && (r.value.prettyPrint <==> Pretty in OptionSet(displayOption.value))
    ensures r.Failure? ==> displayOption.Some? && r.error == InvalidDisplayOptions(OptionSet(displayOption.value))
  {
    var flags :- Parse(displayOption);
    Success(JsonElement(flags.includeCallerThread, flags.includeCallerDetail, flags.pretty))
  }

  function IncludeCallerDetail(e: JsonElement): bool {
    e.includeCallerDetail
  }

  /** `includeCallerDetail` answers whether `caller-detail` was among the
      display options the element was read from. */
  lemma IncludeCallerDetailFromOptions(pieces: seq<string>)
    requires |pieces| >= 1
    requires forall i :: 0 <= i < |pieces| ==> IsOptionPiece(pieces[i])
    requires TrimAll(pieces) <= DisplayOptions
    ensures From(Some(Join(pieces))).Success?
    ensures IncludeCallerDetail(From(Some(Join(pieces))).value) <==> CallerDetail in TrimAll(pieces)
  {
    var flags := ParseRecognised(pieces);
    FromParsed(Join(pieces), flags);
  }

  lemma FromParsed(text: string, flags: Flags)
    requires Parse(Some(text)) == Success(flags)
    ensures From(Some(text)).Success?
    ensures IncludeCallerDetail(From(Some(text)).value) == flags.includeCallerDetail
  {
  }

  /** `JsonLogEntry`: the serialised record; `None` stands for a null member. */
  datatype JsonLogEntry = JsonLogEntry(
    timestamp: int,
    level: string,
    callerThread: Option<ThreadValue>,
    callerClass: Option<string>,
    callerDetail: Option<StackFrame>,
    context: Option<map<string, string>>,
    message: string,
    exception: Option<string>
  )

  /** `JsonLogEntry.from`. The caller class and the caller frame exclude each
      other, chosen by `includeCallerDetail`; with it on, the event must carry
      its caller frame. The thread is copied only when asked for, the context is
      the thread's context map (`mdc`) and the exception is the throwable's
      rendered trace. */
  function EntryFrom(event: LogEvent, e: JsonElement, mdc: Option<map<string, string>>): (r: Result<JsonLogEntry, Error>)
    ensures r.Failure? <==> e.includeCallerDetail && event.callerFrame.None?
    ensures r.Failure? ==> r.error.NullPointer?
    ensures r.Success? ==>
              && r.value.timestamp == event.timestamp
              && r.value.level == event.level.Name()
              && r.value.message == event.resolvedMessage
              && r.value.context == mdc
    ensures r.Success? ==>
              && (r.value.callerClass.Some? <==> !e.includeCallerDetail)
              && (r.value.callerClass.Some? ==> r.value.callerClass.value == event.callerClassName)
              && (r.value.callerDetail.Some? <==> e.includeCallerDetail)
              && (r.value.callerDetail.Some? ==> r.value.callerDetail == event.callerFrame)
    ensures r.Success? && e.includeCallerThread ==> r.value.callerThread == event.callerThread
    ensures r.Success? && !e.includeCallerThread ==> r.value.callerThread.None?
    ensures r.Success? ==>
              && (r.value.exception.Some? <==> event.throwable.Some?)
              && (r.value.exception.Some? ==> r.value.exception.value == event.throwable.value.trace)
  {
    var callerDetail :-
      if e.includeCallerDetail then
        (if event.callerFrame.Some? then Success(event.callerFrame) else Failure(NullPointer("callerFrame")))
      else Success(None);
    Success(JsonLogEntry(
      timestamp := event.timestamp,
      level := event.level.Name(),
      callerThread := if e.includeCallerThread then event.callerThread else None,
      callerClass := if e.includeCallerDetail then None else Some(event.callerClassName),
      callerDetail := callerDetail,
      context := mdc,
      message := event.resolvedMessage,
      exception := match event.throwable case Some(t) => Some(t.trace) case None => None))
  }

  /** The members a record carries once its null members are left out. */
  function PresentFields(entry: JsonLogEntry): set<JsonFields.Field> {
    JsonFields.Always
    + JsonFields.If(entry.callerThread.Some?, JsonFields.CallerThread)
    + JsonFields.If(entry.callerClass.Some?, JsonFields.CallerClass)
    + JsonFields.If(entry.callerDetail.Some?, JsonFields.CallerDetail)
    + JsonFields.If(entry.context.Some?, JsonFields.Context)
    + JsonFields.If(entry.exception.Some?, JsonFields.Exception)
  }

  /** The record's shape: exactly one of `callerClass` and `callerDetail`,
      `callerThread` when asked for and known, `context` when the thread has a
      context map, and `exception` exactly when something was thrown. */
  lemma EntryShape(event: LogEvent, e: JsonElement, mdc: Option<map<string, string>>)
    requires !(e.includeCallerDetail && event.callerFrame.None?)
    ensures EntryFrom(event, e, mdc).Success?
    ensures var fields := PresentFields(EntryFrom(event, e, mdc).value);
            && JsonFields.Always <= fields
            && (JsonFields.CallerClass in fields <==> JsonFields.CallerDetail !in fields)
            && (JsonFields.CallerDetail in fields <==> e.includeCallerDetail)
            && (JsonFields.CallerThread in fields <==> e.includeCallerThread && event.callerThread.Some?)
            && (JsonFields.Context in fields <==> mdc.Some?)
            && (JsonFields.Exception in fields <==> event.throwable.Some?)
  {
  }

  /** `render`: builds the record, serialises it into a byte buffer as UTF-8 and
      appends the buffer decoded as UTF-8, so exactly the JSON text is appended
      and the target so far is kept. */
  function Render(e: JsonElement, event: LogEvent, mdc: Option<map<string, string>>,
                  serialize: (JsonLogEntry, bool) -> string, target: string): (r: Result<string, Error>)
    ensures r.Failure? <==> e.includeCallerDetail && event.callerFrame.None?
    ensures r.Failure? ==> r.error.NullPointer?
    ensures r.Success? ==>
              && |target| <= |r.value|
              && r.value[..|target|] == target
              && r.value[|target|..] == serialize(EntryFrom(event, e, mdc).value, e.prettyPrint)
  {
    var entry :- EntryFrom(event, e, mdc);
    var text := serialize(entry, e.prettyPrint);
    Utf8.DecodeEncode(text);
    var appended := Utf8.Decode(Utf8.Encode(text));
    assert (target + appended)[|target|..] == appended;
    Success(target + appended)
  }
}

=== FILE: json_options.dfy ===
/** The display-option grammar shared by the three generations of the JSON
    element (`JsonElement`, `JsonPattern`, `JsonPatternSegment`): a
    comma-separated subset of `caller-thread`, `caller-detail` and `pretty`. */
module JsonOptions {
  import opened Wrappers
  import opened Errors
  import opened Text

  const CallerThread: string := "caller-thread"
  const CallerDetail: string := "caller-detail"
  const Pretty: string := "pretty"

  /** The option names the JSON elements recognise. */
  const DisplayOptions: set<string> := {CallerThread, CallerDetail, Pretty}

  /** The parsed options: one flag per recognised name. */
  datatype Flags = Flags(includeCallerThread: bool, includeCallerDetail: bool, pretty: bool)

  /** The set of names in a display option: split on commas, each piece trimmed. */
  function OptionSet(displayOption: string): set<string> {
    TrimAll(JavaSplit(displayOption))
  }

  /** The trimmed pieces, as a set. */
  function TrimAll(pieces: seq<string>): set<string> {
    if pieces == [] then {} else {Trim(pieces[0])} + TrimAll(pieces[1..])
  }

  /** The names of two lists of pieces together are the names of each. */
  lemma {:induction false} TrimAllAppend(a: seq<string>, b: seq<string>)
    ensures TrimAll(a + b) == TrimAll(a) + TrimAll(b)
  {
    if a != [] {
      assert (a + b)[1..] == a[1..] + b;
      TrimAllAppend(a[1..], b);
    } else {
      assert a + b == b;
    }
  }

  /** The flags for a set of names known to be recognised. */
  function FlagsOf(names: set<string>): Flags {
    Flags(CallerThread in names, CallerDetail in names, Pretty in names)
  }

  /** A pattern segment as the JSON pattern types see it: its text, whether the
      pattern-type helper recognises it as a JSON segment, and the display option
      that helper extracts from it. */
  datatype Segment = Segment(text: string, isJson: bool, displayOption: Option<string>)

  /** Parses a display option, or fails with the offending option set.
      Without a display option every flag is off. */
  function Parse(displayOption: Option<string>): (r: Result<Flags, Error>)
    ensures displayOption.None? ==> r == Success(Flags(false, false, false))
    ensures displayOption.Some? ==>
              (r.Success? <==> OptionSet(displayOption.value) <= DisplayOptions)
    ensures r.Success? && displayOption.Some? ==>
              && (r.value.includeCallerThread <==> CallerThread in OptionSet(displayOption.value))
              && (r.value.includeCallerDetail <==> CallerDetail in OptionSet(displayOption.value))
              && (r.value.pretty <==> Pretty in OptionSet(displayOption.value))
    ensures r.Failure? ==> displayOption.Some? && r.error == InvalidDisplayOptions(OptionSet(displayOption.value))
  {
    match displayOption
    case None => Success(Flags(false, false, false))
    case Some(text) =>
      var names := OptionSet(text);
      if names <= DisplayOptions then Success(FlagsOf(names)) else Failure(InvalidDisplayOptions(names))
  }

  /** A piece that survives parsing intact: no comma, and not all space. */
  predicate IsOptionPiece(p: string) {
    ',' !in p && !AllTrimmable(p)
  }

  lemma JoinHasComma(ps: seq<string>)
    requires |ps| >= 2
    ensures ',' in Join(ps)
  {
    assert Join(ps) == ps[0] + "," + Join(ps[1..]);
    assert Join(ps)[|ps[0]|] == ',';
  }

  /** `split` gives back the pieces a comma-joined list was written from. */
  lemma JavaSplitOfJoin(pieces: seq<string>)
    requires |pieces| >= 1
    requires forall i :: 0 <= i < |pieces| ==> IsOptionPiece(pieces[i])
    ensures JavaSplit(Join(pieces)) == pieces
  {
    var text := Join(pieces);
    if |pieces| >= 2 {
      JoinHasComma(pieces);
      PiecesJoin(pieces);
      assert JavaSplit(text) == DropTrailingEmpty(pieces);
      assert pieces[|pieces| - 1] != [];
      assert DropTrailingEmpty(pieces) == pieces;
    } else {
      assert text == pieces[0];
    }
  }

  /** An option list written out with commas parses to the flags of the names it
      mentions when all of them are recognised, and fails naming them otherwise. */
  lemma ParseJoined(pieces: seq<string>)
    requires |pieces| >= 1
    requires forall i :: 0 <= i < |pieces| ==> IsOptionPiece(pieces[i])
    ensures Parse(Some(Join(pieces))) ==
              if TrimAll(pieces) <= DisplayOptions
              then Success(FlagsOf(TrimAll(pieces)))
              else Failure(InvalidDisplayOptions(TrimAll(pieces)))
  {
    JavaSplitOfJoin(pieces);
  }

  /** The flags of an option list whose names are all recognised. */
  lemma ParseRecognised(pieces: seq<string>) returns (flags: Flags)
    requires |pieces| >= 1
    requires forall i :: 0 <= i < |pieces| ==> IsOptionPiece(pieces[i])
    requires TrimAll(pieces) <= DisplayOptions
    ensures Parse(Some(Join(pieces))) == Success(flags)
    ensures flags.includeCallerThread <==> CallerThread in TrimAll(pieces)
    ensures flags.includeCallerDetail <==> CallerDetail in TrimAll(pieces)
    ensures flags.pretty <==> Pretty in TrimAll(pieces)
  {
    ParseJoined(pieces);
    flags := FlagsOf(TrimAll(pieces));
  }

  /** Recognised pieces with `pretty` appended are still recognised pieces,
      and their names gain `pretty`. */
  lemma AppendPretty(pieces: seq<string>)
    requires forall i :: 0 <= i < |pieces| ==> IsOptionPiece(pieces[i])
    ensures forall i :: 0 <= i < |pieces + [Pretty]| ==> IsOptionPiece((pieces + [Pretty])[i])
    ensures TrimAll(pieces + [Pretty]) == TrimAll(pieces) + {Pretty}
  {
    var withPretty := pieces + [Pretty];
    RecognisedNameIsClean(Pretty);
    forall i | 0 <= i < |withPretty| ensures IsOptionPiece(withPretty[i]) {
      if i < |pieces| { assert withPretty[i] == pieces[i]; }
    }
    TrimAllAppend(pieces, [Pretty]);
    assert [Pretty][1..] == [];
  }

  /** Appending `pretty` to recognised options turns the `pretty` flag on and
      leaves the other two as they were. */
  lemma ParseWithPretty(pieces: seq<string>) returns (plain: Flags, pretty: Flags)
    requires |pieces| >= 1
    requires forall i :: 0 <= i < |pieces| ==> IsOptionPiece(pieces[i])
    requires TrimAll(pieces) <= DisplayOptions
    ensures Parse(Some(Join(pieces))) == Success(plain)
    ensures Parse(Some(Join(pieces + [Pretty]))) == Success(pretty)
    ensures pretty.pretty
    ensures pretty.includeCallerThread == plain.includeCallerThread
    ensures pretty.includeCallerDetail == plain.includeCallerDetail
  {
    AppendPretty(pieces);
    plain := ParseRecognised(pieces);
    pretty := ParseRecognised(pieces + [Pretty]);
  }

  /** Order and repetition of the names do not matter. */
  lemma ParseIgnoresOrderAndRepetition(a: seq<string>, b: seq<string>)
    requires |a| >= 1 && |b| >= 1
    requires forall i :: 0 <= i < |a| ==> IsOptionPiece(a[i])
    requires forall i :: 0 <= i < |b| ==> IsOptionPiece(b[i])
    requires TrimAll(a) == TrimAll(b)
    ensures Parse(Some(Join(a))) == Parse(Some(Join(b)))
  {
    ParseJoined(a);
    ParseJoined(b);
  }

  /** The option set of a display option that splits into two pieces. */
  lemma OptionSetOfPair(text: string, a: string, b: string)
    requires JavaSplit(text) == [a, b]
    ensures OptionSet(text) == {Trim(a), Trim(b)}
  {
    TrimAllPair(a, b);
  }

  lemma TrimAllPair(a: string, b: string)
    ensures TrimAll([a, b]) == {Trim(a), Trim(b)}
  {
    assert [a, b][1..] == [b];
    assert TrimAll([b]) == {Trim(b)} by {
      assert [b][1..] == [];
    }
  }

  /** One unknown name is enough to reject the whole display option. */
  lemma RejectedByUnknownName(text: string, name: string)
    requires name in OptionSet(text) && name !in DisplayOptions
    ensures Parse(Some(text)) == Failure(InvalidDisplayOptions(OptionSet(text)))
  {
  }

  /** The recognised names are comma-free and carry no surrounding space. */
  lemma RecognisedNameIsClean(name: string)
    requires name in DisplayOptions
    ensures IsOptionPiece(name) && Trim(name) == name
  {
    if name == CallerThread {
      assert Trim(CallerThread) == CallerThread;
    } else if name == CallerDetail {
      assert Trim(CallerDetail) == CallerDetail;
    } else {
      assert Trim(Pretty) == Pretty;
    }
  }

  /** `split` drops one trailing empty piece after a comma-free string. */
  lemma JavaSplitTrailingComma(p: string)
    requires ',' !in p && p != []
    ensures JavaSplit(p + ",") == [p]
  {
    var pieces := [p, ""];
    assert Join(pieces) == p + ",";
    PiecesJoin(pieces);
    JoinHasComma(pieces);
    assert DropTrailingEmpty(pieces) == [p];
  }

  /** ... and keeps a trailing piece that is not empty. */
  lemma JavaSplitPair(p: string, q: string)
    requires ',' !in p && ',' !in q && q != []
    ensures JavaSplit(p + "," + q) == [p, q]
  {
    var pieces := [p, q];
    assert Join(pieces) == p + "," + q;
    PiecesJoin(pieces);
    JoinHasComma(pieces);
    assert DropTrailingEmpty(pieces) == pieces;
  }

  /** A recognised option followed by an unknown one (as in
      `"caller-detail,neon"`) is rejected, naming both. */
  lemma UnknownOptionRejected(known: string, unknown: string, text: string)
    requires known in DisplayOptions
    requires IsOptionPiece(unknown) && Trim(unknown) == unknown && unknown !in DisplayOptions
    requires text == known + "," + unknown
    ensures Parse(Some(text)) == Failure(InvalidDisplayOptions({known, unknown}))
  {
    RecognisedNameIsClean(known);
    JavaSplitPair(known, unknown);
    OptionSetOfPair(text, known, unknown);
    RejectedByUnknownName(text, unknown);
  }

  /** `split` drops a trailing empty piece, so a name followed by a comma (as in
      `"pretty,"`) parses like the name alone. */
  lemma TrailingCommaIgnored(name: string, text: string)
    requires IsOptionPiece(name)
    requires text == name + ","
    ensures Parse(Some(text)) == Parse(Some(name))
  {
    JavaSplitTrailingComma(name);
    assert JavaSplit(name) == [name];
  }

  /** A trailing piece holding only a space (as in `"pretty, "`) is not dropped by
      `split`; it trims to the empty name, which is not recognised. */
  lemma TrailingBlankPieceRejected(name: string, text: string)
    requires IsOptionPiece(name)
    requires text == name + ", "
    ensures Parse(Some(text)) == Failure(InvalidDisplayOptions({Trim(name), ""}))
  {
    JavaSplitBlankTail(name, text);
    BlankTailRejected(name, text);
  }

  lemma BlankTailRejected(name: string, text: string)
    requires JavaSplit(text) == [name, " "]
    ensures Parse(Some(text)) == Failure(InvalidDisplayOptions({Trim(name), ""}))
  {
    BlankTrimsToEmpty(" ");
    OptionSetOfPair(text, name, " ");
    RejectedByUnknownName(text, "");
  }

  lemma JavaSplitBlankTail(name: string, text: string)
    requires ',' !in name
    requires text == name + ", "
    ensures JavaSplit(text) == [name, " "]
  {
    assert text == name + "," + " ";
    JavaSplitPair(name, " ");
  }

  lemma BlankTrimsToEmpty(s: string)
    requires s == " "
    ensures Trim(s) == []
  {
    assert AllTrimmable(s);
  }
}

/** The members of the JSON record the elements serialise. The serialisers leave
    out a member whose value is null, so the record's shape is the set of members
    present. */
module JsonFields {
  datatype Field = Timestamp | Level | CallerThread | CallerClass | CallerDetail | Context | Message | Exception

  /** The members every record carries. */
  const Always: set<Field> := {Timestamp, Level, Message}

  /** `field`, when `present`. */
  function If(present: bool, field: Field): set<Field> {
    if present then {field} else {}
  }
}

=== FILE: json_pattern.dfy ===
/** `JsonPattern`: the log-pattern generation of the JSON output. It keeps one
    DslJson writer (a byte buffer) across renders and copies the buffer into the
    target through `AppendingOutputStream`, optionally through
    `PrettifyOutputStream` first. The serialiser (record to JSON text) and the
    prettifier (bytes to bytes) are parameters. */
module JsonPatterns {
  import opened Wrappers
  import opened Errors
  import opened Events
  import opened JsonOptions
  import opened Text
  import JsonFields
  import opened Utf8

  datatype JsonPattern = JsonPattern(includeCallerThread: bool, includeCallerDetail: bool, prettyPrint: bool)

  /** `from`: the segment must be of JSON type; no display option leaves every
      flag off; otherwise every name must be recognised and each flag is on
      exactly when its name was given. */
  function From(segment: Segment): (r: Result<JsonPattern, Error>)
    ensures !segment.isJson ==> r == Failure(NotJsonSegment(segment.text))
    ensures segment.isJson && segment.displayOption.None? ==> r == Success(JsonPattern(false, false, false))
    ensures segment.isJson && segment.displayOption.Some? ==>
              (r.Success? <==> OptionSet(segment.displayOption.value) <= DisplayOptions)
    ensures r.Success? && segment.displayOption.Some? ==>
              && (r.value.includeCallerThread <==> CallerThread in OptionSet(segment.displayOption.value))
              && (r.value.includeCallerDetail <==> CallerDetail in OptionSet(segment.displayOption.value))
              && (r.value.prettyPrint <==> Pretty in OptionSet(segment.displayOption.value))
    ensures r.Failure? && segment.isJson ==>
              && segment.displayOption.Some?
              && r.error == InvalidDisplayOptions(OptionSet(segment.displayOption.value))
  {
    if !segment.isJson then Failure(NotJsonSegment(segment.text))
    else
      var flags :- Parse(segment.displayOption);
      Success(JsonPattern(flags.includeCallerThread, flags.includeCallerDetail, flags.pretty))
  }

  function IncludeCallerDetail(p: JsonPattern): bool {
    p.includeCallerDetail
  }

  function IncludeCallerThread(p: JsonPattern): bool {
    p.includeCallerThread
  }

  /** The accessors answer whether `caller-detail` and `caller-thread` were
      among the display options of the JSON segment the pattern was read from. */
  lemma AccessorsFromOptions(text: string, pieces: seq<string>)
    requires |pieces| >= 1
    requires forall i :: 0 <= i < |pieces| ==> IsOptionPiece(pieces[i])
    requires TrimAll(pieces) <= DisplayOptions
    ensures From(Segment(text, true, Some(Join(pieces)))).Success?
    ensures var p := From(Segment(text, true, Some(Join(pieces)))).value;
            && (IncludeCallerDetail(p) <==> CallerDetail in TrimAll(pieces))
            && (IncludeCallerThread(p) <==> CallerThread in TrimAll(pieces))
  {
    var flags := ParseRecognised(pieces);
    FromParsed(Segment(text, true, Some(Join(pieces))), flags);
  }

  lemma FromParsed(segment: Segment, flags: Flags)
    requires segment.isJson && Parse(segment.displayOption) == Success(flags)
    ensures From(segment).Success?
    ensures IncludeCallerDetail(From(segment).value) == flags.includeCallerDetail
    ensures IncludeCallerThread(From(segment).value) == flags.includeCallerThread
  {
  }

  /** `JsonLogEntry` of this generation: no context member. */
  datatype JsonLogEntry = JsonLogEntry(
    timestamp: int,
    level: string,
    callerClass: Option<string>,
    callerThread: Option<ThreadValue>,
    callerDetail: Option<StackFrame>,
    message: string,
    exception: Option<string>
  )

  /** `JsonLogEntry.from`: the caller class only without caller detail, the
      caller frame (as the event has it) only with it, the thread only when
      asked for, and the exception as the throwable's rendered trace. */
  function EntryFrom(event: LogEvent, p: JsonPattern): (r: JsonLogEntry)
    ensures r.timestamp == event.timestamp && r.level == event.level.Name() && r.message == event.resolvedMessage
    ensures r.callerClass.Some? <==> !p.includeCallerDetail
    ensures r.callerClass.Some? ==> r.callerClass.value == event.callerClassName
    ensures p.includeCallerDetail ==> r.callerDetail == event.callerFrame
    ensures !p.includeCallerDetail ==> r.callerDetail.None?
    ensures p.includeCallerThread ==> r.callerThread == event.callerThread
    ensures !p.includeCallerThread ==> r.callerThread.None?
    ensures r.exception.Some? <==> event.throwable.Some?
    ensures r.exception.Some? ==> r.exception.value == event.throwable.value.trace
  {
    JsonLogEntry(
      timestamp := event.timestamp,
      level := event.level.Name(),
      callerClass := if p.includeCallerDetail then None else Some(event.callerClassName),
      callerThread := if p.includeCallerThread then event.callerThread else None,
      callerDetail := if p.includeCallerDetail then event.callerFrame else None,
      message := event.resolvedMessage,
      exception := match event.throwable case Some(t) => Some(t.trace) case None => None)
  }

  /** The members a record carries once its null members are left out. */
  function PresentFields(entry: JsonLogEntry): set<JsonFields.Field> {
    JsonFields.Always
    + JsonFields.If(entry.callerClass.Some?, JsonFields.CallerClass)
    + JsonFields.If(entry.callerThread.Some?, JsonFields.CallerThread)
    + JsonFields.If(entry.callerDetail.Some?, JsonFields.CallerDetail)
    + JsonFields.If(entry.exception.Some?, JsonFields.Exception)
  }

  /** The record's shape: never both `callerClass` and `callerDetail` (and
      `callerDetail` only when the event knows its caller frame), never a
      `context`, `callerThread` when asked for and known, and `exception`
      exactly when something was thrown. */
  lemma EntryShape(event: LogEvent, p: JsonPattern)
    ensures var fields := PresentFields(EntryFrom(event, p));
            && JsonFields.Always <= fields
            && JsonFields.Context !in fields
            && (JsonFields.CallerClass in fields <==> !p.includeCallerDetail)
            && (JsonFields.CallerDetail in fields <==> p.includeCallerDetail && event.callerFrame.Some?)
            && (JsonFields.CallerThread in fields <==> p.includeCallerThread && event.callerThread.Some?)
            && (JsonFields.Exception in fields <==> event.throwable.Some?)
  {
  }

  /** The DslJson writer: the bytes serialised since its last reset. */
  datatype Writer = Writer(buffer: seq<Byte>)

  /** A writer as a new pattern has it, and as `reset` leaves it. */
  const Fresh: Writer := Writer([])

  /** The bytes `toStream` hands to the target stream: the writer's buffer,
      through the prettifier when pretty-printing. */
  function StreamBytes(p: JsonPattern, buffer: seq<Byte>, prettify: seq<Byte> -> seq<Byte>): seq<Byte> {
    if p.prettyPrint then prettify(buffer) else buffer
  }

  /** The value of the byte as a Java `byte`: two's complement, so from 0x80
      up it is negative. */
  function SignedValue(b: Byte): (v: int)
    ensures -0x80 <= v < 0x80
    ensures v % 0x100 == b as int
  {
    if b < 0x80 then b as int else b as int - 0x100
  }

  /** `AppendingOutputStream` as written: each byte is cast to a `char`. Java
      widens the signed byte to `int` and keeps its low 16 bits, so a byte from
      0x80 up becomes U+FF80 to U+FFFF. */
  function CastChar(b: Byte): (c: char)
    ensures c as int == (SignedValue(b) + 0x1_0000) % 0x1_0000
  {
    if b < 0x80 then b as int as char else (b as int + 0xFF00) as char
  }

  function CastChars(bytes: seq<Byte>): (r: string)
    ensures |r| == |bytes|
    ensures forall i :: 0 <= i < |bytes| ==> r[i] == CastChar(bytes[i])
  {
    if bytes == [] then [] else [CastChar(bytes[0])] + CastChars(bytes[1..])
  }

  /** `renderTo` as written: serialise the record into the writer, copy the
      writer's bytes into the target one cast `char` per byte, reset the writer. */
  function RenderToAsWritten(p: JsonPattern, event: LogEvent, writer: Writer, serialize: JsonLogEntry -> string,
                             prettify: seq<Byte> -> seq<Byte>, target: string): (r: (string, Writer))
    ensures r.1 == Fresh
    ensures |target| <= |r.0| && r.0[..|target|] == target
  {
    var buffer := writer.buffer + Encode(serialize(EntryFrom(event, p)));
    (target + CastChars(StreamBytes(p, buffer, prettify)), Fresh)
  }

  /** The cast garbles every character beyond ASCII: `é` is serialised as the
      bytes C3 A9 and appended as U+FFC3 U+FFA9. */
  lemma CastGarblesEAcute(s: string)
    requires s == "é"
    ensures Encode(s) == [0xC3, 0xA9]
    ensures CastChars(Encode(s)) == "\U{FFC3}\U{FFA9}" != s
  {
    assert Encode(s) == EncodeChar('é') + Encode([]);
  }

  /** Whenever the JSON text holds a character beyond ASCII (a message in any
      language but English, say), the text appended is not the JSON text. */
  lemma AsWrittenGarblesNonAscii(p: JsonPattern, event: LogEvent, serialize: JsonLogEntry -> string,
                                 prettify: seq<Byte> -> seq<Byte>, target: string)
    requires !p.prettyPrint
    requires !IsAscii(serialize(EntryFrom(event, p)))
    ensures RenderToAsWritten(p, event, Fresh, serialize, prettify, target).0[|target|..] != serialize(EntryFrom(event, p))
  {
    var text := serialize(EntryFrom(event, p));
    EncodeNonAsciiLonger(text);
    var out := RenderToAsWritten(p, event, Fresh, serialize, prettify, target).0;
    assert Fresh.buffer + Encode(text) == Encode(text);
    assert out == target + CastChars(Encode(text));
    assert out[|target|..] == CastChars(Encode(text));
  }

  /** For ASCII text the cast is harmless: as written, the JSON text is appended. */
  lemma AsWrittenAgreesOnAscii(p: JsonPattern, event: LogEvent, serialize: JsonLogEntry -> string,
                               prettify: seq<Byte> -> seq<Byte>, target: string)
    requires !p.prettyPrint
    requires IsAscii(serialize(EntryFrom(event, p)))
    ensures RenderToAsWritten(p, event, Fresh, serialize, prettify, target).0 == target + serialize(EntryFrom(event, p))
  {
    var text := serialize(EntryFrom(event, p));
    EncodeAscii(text);
    assert Fresh.buffer + Encode(text) == Encode(text);
    assert CastChars(Encode(text)) == text;
  }

  /** `renderTo` with the bytes decoded as UTF-8, as intended: serialise the
      record into the writer, append the writer's bytes as text, and reset the
      writer, so it is empty again for the next render. */
  function RenderTo(p: JsonPattern, event: LogEvent, writer: Writer, serialize: JsonLogEntry -> string,
                    prettify: seq<Byte> -> seq<Byte>, target: string): (r: (string, Writer))
    ensures r.1 == Fresh
    ensures |target| <= |r.0| && r.0[..|target|] == target
    ensures writer == Fresh && !p.prettyPrint ==> r.0[|target|..] == serialize(EntryFrom(event, p))
  {
    var text := serialize(EntryFrom(event, p));
    var buffer := writer.buffer + Encode(text);
    assert writer == Fresh ==> buffer == Encode(text);
    DecodeEncode(text);
    var appended := Decode(StreamBytes(p, buffer, prettify));
    assert (target + appended)[|target|..] == appended;
    (target + appended, Fresh)
  }

  /** Because the writer is reset after each render, renders do not leak into
      each other: two renders in a row from a fresh writer append the two
      records' JSON texts, one after the other. */
  lemma SuccessiveRendersIndependent(p: JsonPattern, a: LogEvent, b: LogEvent, serialize: JsonLogEntry -> string,
                                     prettify: seq<Byte> -> seq<Byte>, target: string)
    requires !p.prettyPrint
    ensures var first := RenderTo(p, a, Fresh, serialize, prettify, target);
            var second := RenderTo(p, b, first.1, serialize, prettify, first.0);
            && second.1 == Fresh
            && second.0 == target + serialize(EntryFrom(a, p)) + serialize(EntryFrom(b, p))
  {
    var first := RenderTo(p, a, Fresh, serialize, prettify, target);
    var second := RenderTo(p, b, first.1, serialize, prettify, first.0);
    assert first.0 == target + serialize(EntryFrom(a, p)) by {
      assert first.0 == first.0[..|target|] + first.0[|target|..];
    }
    assert second.0 == first.0 + serialize(EntryFrom(b, p)) by {
      assert second.0 == second.0[..|first.0|] + second.0[|first.0|..];
    }
  }
}

=== FILE: json_pattern_segment.dfy ===
/** `JsonPatternSegment`: the writer generation of the JSON output, serialised
    with a Jackson `ObjectMapper` that leaves out null members. Serialisation is a
    parameter: given the mapper's settings and the record it yields the JSON text,
    or nothing when Jackson reports an I/O failure. */
module JsonPatternSegments {
  import opened Wrappers
  import opened Errors
  import opened Events
  import opened JsonOptions
  import opened Text
  import JsonFields

  /** The one mapper setting the segment chooses: indented output. */
  datatype ObjectMapper = ObjectMapper(indentOutput: bool)

  datatype JsonPatternSegment = JsonPatternSegment(
    includeCallerThread: bool,
    includeCallerDetail: bool,
    objectMapper: ObjectMapper
  )

  /** `from`: the segment must be of JSON type; no option leaves both flags off
      and the output unindented; otherwise every name must be recognised, each
      flag is on exactly when its name was given, and `pretty` switches on
      indentation rather than setting a flag. */
  function From(segment: Segment): (r: Result<JsonPatternSegment, Error>)
    ensures !segment.isJson ==> r == Failure(NotJsonSegment(segment.text))
    ensures segment.isJson && segment.displayOption.None? ==>
              r == Success(JsonPatternSegment(false, false, ObjectMapper(false)))
    ensures segment.isJson && segment.displayOption.Some? ==>
              (r.Success? <==> OptionSet(segment.displayOption.value) <= DisplayOptions)
    ensures r.Success? && segment.displayOption.Some? ==>
              && (r.value.includeCallerThread <==> CallerThread in OptionSet(segment.displayOption.value))
              && (r.value.includeCallerDetail <==> CallerDetail in OptionSet(segment.displayOption.value))
              && (r.value.objectMapper.indentOutput <==> Pretty in OptionSet(segment.displayOption.value))
    ensures r.Failure? && segment.isJson ==>
              && segment.displayOption.Some?
              && r.error == InvalidDisplayOptions(OptionSet(segment.displayOption.value))
  {
    if !segment.isJson then Failure(NotJsonSegment(segment.text))
    else
      var flags :- Parse(segment.displayOption);
      Success(JsonPatternSegment(flags.includeCallerThread, flags.includeCallerDetail, ObjectMapper(flags.pretty)))
  }

  function IncludeCallerDetail(s: JsonPatternSegment): bool {
    s.includeCallerDetail
  }

  function IncludeCallerThread(s: JsonPatternSegment): bool {
    s.includeCallerThread
  }

  /** The accessors answer whether `caller-detail` and `caller-thread` were
      given; `pretty` shows only in the mapper. */
  lemma AccessorsFromOptions(text: string, pieces: seq<string>)
    requires |pieces| >= 1
    requires forall i :: 0 <= i < |pieces| ==> IsOptionPiece(pieces[i])
    requires TrimAll(pieces) <= DisplayOptions
    ensures From(Segment(text, true, Some(Join(pieces)))).Success?
    ensures var s := From(Segment(text, true, Some(Join(pieces)))).value;
            && (IncludeCallerDetail(s) <==> CallerDetail in TrimAll(pieces))
            && (IncludeCallerThread(s) <==> CallerThread in TrimAll(pieces))
            && (s.objectMapper.indentOutput <==> Pretty in TrimAll(pieces))
  {
    var flags := ParseRecognised(pieces);
    FromParsed(Segment(text, true, Some(Join(pieces))), flags);
  }

  lemma FromParsed(segment: Segment, flags: Flags)
    requires segment.isJson && Parse(segment.displayOption) == Success(flags)
    ensures From(segment) == Success(JsonPatternSegment(flags.includeCallerThread, flags.includeCallerDetail,
                                                         ObjectMapper(flags.pretty)))
  {
  }

  /** Adding `pretty` to recognised options switches indentation on and
      leaves both flags as they were. */
  lemma PrettyOnlyIndents(text: string, pieces: seq<string>)
    requires |pieces| >= 1
    requires forall i :: 0 <= i < |pieces| ==> IsOptionPiece(pieces[i])
    requires TrimAll(pieces) <= DisplayOptions
    ensures From(Segment(text, true, Some(Join(pieces)))).Success?
    ensures From(Segment(text, true, Some(Join(pieces + [Pretty])))).Success?
    ensures var plain := From(Segment(text, true, Some(Join(pieces)))).value;
            var pretty := From(Segment(text, true, Some(Join(pieces + [Pretty])))).value;
            && pretty.objectMapper.indentOutput
            && pretty.includeCallerThread == plain.includeCallerThread
            && pretty.includeCallerDetail == plain.includeCallerDetail
  {
    var plainFlags, prettyFlags := ParseWithPretty(pieces);
    FromParsed(Segment(text, true, Some(Join(pieces))), plainFlags);
    FromParsed(Segment(text, true, Some(Join(pieces + [Pretty]))), prettyFlags);
  }

  /** `JsonLogEntry` of this generation: no context member, and the exception
      is the throwable itself. */
  datatype JsonLogEntry = JsonLogEntry(
    timestamp: int,
    level: string,
    callerThread: Option<ThreadValue>,
    callerClass: Option<string>,
    callerDetail: Option<StackFrame>,
    message: string,
    exception: Option<Throwable>
  )

  /** `JsonLogEntry.from`: the caller class only without caller detail, the
      caller frame (as the event has it) only with it, the thread only when
      asked for, and the event's exception unchanged. */
  function EntryFrom(event: LogEvent, s: JsonPatternSegment): (r: JsonLogEntry)
    ensures r.timestamp == event.timestamp && r.level == event.level.Name() && r.message == event.resolvedMessage
    ensures r.callerClass.Some? <==> !s.includeCallerDetail
    ensures r.callerClass.Some? ==> r.callerClass.value == event.callerClassName
    ensures s.includeCallerDetail ==> r.callerDetail == event.callerFrame
    ensures !s.includeCallerDetail ==> r.callerDetail.None?
    ensures s.includeCallerThread ==> r.callerThread == event.callerThread
    ensures !s.includeCallerThread ==> r.callerThread.None?
    ensures r.exception == event.throwable
  {
    JsonLogEntry(
      timestamp := event.timestamp,
      level := event.level.Name(),
      callerThread := if s.includeCallerThread then event.callerThread else None,
      callerClass := if s.includeCallerDetail then None else Some(event.callerClassName),
      callerDetail := if s.includeCallerDetail then event.callerFrame else None,
      message := event.resolvedMessage,
      exception := event.throwable)
  }

  /** The members Jackson writes: the non-null ones. */
  function PresentFields(entry: JsonLogEntry): set<JsonFields.Field> {
    JsonFields.Always
    + JsonFields.If(entry.callerThread.Some?, JsonFields.CallerThread)
    + JsonFields.If(entry.callerClass.Some?, JsonFields.CallerClass)
    + JsonFields.If(entry.callerDetail.Some?, JsonFields.CallerDetail)
    + JsonFields.If(entry.exception.Some?, JsonFields.Exception)
  }

  /** The record's shape: never both `callerClass` and `callerDetail`, never a
      `context`, `callerThread` when asked for and known, `exception` exactly
      when something was thrown. */
  lemma EntryShape(event: LogEvent, s: JsonPatternSegment)
    ensures var fields := PresentFields(EntryFrom(event, s));
            && JsonFields.Always <= fields
            && JsonFields.Context !in fields
            && (JsonFields.CallerClass in fields <==> !s.includeCallerDetail)
            && (JsonFields.CallerDetail in fields <==> s.includeCallerDetail && event.callerFrame.Some?)
            && (JsonFields.CallerThread in fields <==> s.includeCallerThread && event.callerThread.Some?)
            && (JsonFields.Exception in fields <==> event.throwable.Some?)
  {
  }

  /** `render`: the record is written with the segment's mapper and the text is
      appended; the target so far is kept and nothing else is added. An I/O
      failure of the mapper surfaces as `UncheckedIOException`. */
  function Render(s: JsonPatternSegment, event: LogEvent,
                  writeValue: (ObjectMapper, JsonLogEntry) -> Option<string>, target: string): (r: Result<string, Error>)
    ensures r.Failure? <==> writeValue(s.objectMapper, EntryFrom(event, s)).None?
    ensures r.Failure? ==> r.error == UncheckedIO
    ensures r.Success? ==>
              && |target| <= |r.value|
              && r.value[..|target|] == target
              && r.value[|target|..] == writeValue(s.objectMapper, EntryFrom(event, s)).value
  {
    match writeValue(s.objectMapper, EntryFrom(event, s))
    case None => Failure(UncheckedIO)
    case Some(text) =>
      assert (target + text)[|target|..] == text;
      Success(target + text)
  }
}

=== FILE: log_pattern.dfy ===
/** A log pattern: a list of pattern elements rendered one after the other into
    the same target. Only the ordering is modelled: each element renders in
    list order, on the text the earlier ones produced. */
module LogPatterns {
  import opened Wrappers
  import opened Errors
  import opened Events
  import VerbatimElements
  import ContextElements
  import ThreadElements
  import JsonElements

  /** The pattern elements of this generation. */
  datatype Element =
    | Verbatim(verbatim: VerbatimElements.VerbatimElement)
    | Context(context: ContextElements.ContextElement)
    | Thread(thread: ThreadElements.ThreadElement)
    | Json(json: JsonElements.JsonElement)

  /** What the elements read besides the event: the thread's context map and
      the JSON serialiser. */
  datatype Environment = Environment(
    mdc: Option<map<string, string>>,
    serialize: (JsonElements.JsonLogEntry, bool) -> string
  )

  /** One element's `render`. */
  function RenderElement(e: Element, event: LogEvent, env: Environment, target: string): Result<string, Error> {
    match e
    case Verbatim(v) => Success(VerbatimElements.Render(v, event, target))
    case Context(c) => Success(ContextElements.Render(c, event, env.mdc, target))
    case Thread(t) => ThreadElements.Render(t, event, target)
    case Json(j) => JsonElements.Render(j, event, env.mdc, env.serialize, target)
  }

  /** The text an element appends, or the exception it throws. */
  function Appended(e: Element, event: LogEvent, env: Environment): Result<string, Error> {
    RenderElement(e, event, env, "")
  }

  /** `target` followed by an appended text, or the same failure. */
  function Prefixed(target: string, r: Result<string, Error>): Result<string, Error> {
    match r
    case Success(s) => Success(target + s)
    case Failure(err) => Failure(err)
  }

  /** Every element only appends: what it appends does not depend on the target
      it appends to. */
  lemma RenderElementAppends(e: Element, event: LogEvent, env: Environment, target: string)
    ensures RenderElement(e, event, env, target) == Prefixed(target, Appended(e, event, env))
  {
    match e
    case Verbatim(v) =>
    case Context(c) =>
    case Thread(t) =>
    case Json(j) =>
      var r := RenderElement(e, event, env, target);
      var a := Appended(e, event, env);
      if r.Success? {
        assert r.value == r.value[..|target|] + r.value[|target|..];
        assert a.value == a.value[0..];
      }
  }

  /** Appended texts concatenated in order, or the first failure among them. */
  function Concat(rs: seq<Result<string, Error>>): Result<string, Error> {
    if rs == [] then Success([])
    else
      var init :- Concat(rs[..|rs| - 1]);
      var last :- rs[|rs| - 1];
      Success(init + last)
  }

  /** What each element of a list appends, in list order. */
  function AppendedEach(es: seq<Element>, event: LogEvent, env: Environment): (rs: seq<Result<string, Error>>)
    ensures |rs| == |es|
    ensures forall i :: 0 <= i < |es| ==> rs[i] == Appended(es[i], event, env)
  {
    seq(|es|, i requires 0 <= i < |es| => Appended(es[i], event, env))
  }

  /** The texts the elements append, concatenated in list order, or the first
      exception one of them throws. */
  function AppendedAll(es: seq<Element>, event: LogEvent, env: Environment): Result<string, Error> {
    Concat(AppendedEach(es, event, env))
  }

  /** Once a text has failed, the ones after it change nothing. */
  lemma {:induction false} FailureSticks(rs: seq<Result<string, Error>>, j: nat, k: nat)
    requires j <= k <= |rs|
    requires Concat(rs[..j]).Failure?
    ensures Concat(rs[..k]) == Concat(rs[..j])
  {
    if k > j {
      FailureSticks(rs, j, k - 1);
      assert rs[..k][..k - 1] == rs[..k - 1];
    }
  }

  /** One more element rendered into a target that holds the texts of the
      elements before it: either the texts of one element more, or the whole
      pattern fails with the element's exception. */
  lemma {:induction false} RenderStep(rs: seq<Result<string, Error>>, target: string, i: nat, out: string,
                                      next: Result<string, Error>)
    requires i < |rs| && Concat(rs[..i]).Success?
    requires out == target + Concat(rs[..i]).value
    requires next == Prefixed(out, rs[i])
    ensures next.Failure? ==> Prefixed(target, Concat(rs)) == Failure(next.error)
    ensures next.Success? ==>
              && Concat(rs[..i + 1]).Success?
              && next.value == target + Concat(rs[..i + 1]).value
  {
    assert rs[..i + 1][..i] == rs[..i];
    if next.Failure? {
      FailureSticks(rs, i + 1, |rs|);
      assert rs[..|rs|] == rs;
    } else {
      assert next.value == target + (Concat(rs[..i]).value + rs[i].value);
    }
  }

  /** One element rendering into the pattern's target. */
  method RenderOne(e: Element, event: LogEvent, env: Environment, target: string) returns (r: Result<string, Error>)
    ensures r == Prefixed(target, Appended(e, event, env))
  {
    RenderElementAppends(e, event, env, target);
    r := RenderElement(e, event, env, target);
  }

  /** `render` of a pattern: each element renders into the target in list
      order; the result is the target followed by every element's text in that
      order, or the first exception thrown. */
  method RenderAll(es: seq<Element>, event: LogEvent, env: Environment, target: string)
    returns (r: Result<string, Error>)
    ensures r == Prefixed(target, AppendedAll(es, event, env))
  {
    ghost var rs := AppendedEach(es, event, env);
    var out := target;
    var i := 0;
    while i < |es|
      invariant 0 <= i <= |es|
      invariant Concat(rs[..i]).Success?
      invariant out == target + Concat(rs[..i]).value
    {
      var next := RenderOne(es[i], event, env, out);
      RenderStep(rs, target, i, out, next);
      if next.Failure? {
        return Failure(next.error);
      }
      out := next.value;
      i := i + 1;
    }
    assert rs[..i] == rs;
    return Success(out);
  }

  /** Two elements render first-listed first, as a two-element pattern's test
      expects: the second element's text follows the first's. */
  lemma TwoElementsInOrder(first: Element, second: Element, event: LogEvent, env: Environment)
    requires Appended(first, event, env).Success? && Appended(second, event, env).Success?
    ensures AppendedAll([first, second], event, env)
            == Success(Appended(first, event, env).value + Appended(second, event, env).value)
  {
    var rs := AppendedEach([first, second], event, env);
    var a := rs[0].value;
    assert rs[..1][..0] == [];
    assert Concat(rs[..1]) == Success([] + a);
    assert [] + a == a;
    assert rs[..2] == rs;
  }
}

=== FILE: log_service_manager.dfy ===
/** `LogServiceManager`: the registry of the service's refreshable and
    stoppable participants. Participants are known by identity only (a number
    standing for the object reference); what a refresh does to a participant is
    recorded as the calls it received, and what a stop does as the processor
    state the manager polls. */
module LogServiceManagers {
  import opened Wrappers

  /** `java.util.Properties`, as the key/value pairs it holds. */
  type Properties = map<string, string>

  /** An object reference. */
  type Participant = nat

  /** The two `Refreshable` calls. A `null` properties argument is `None`. */
  datatype Call = Reload | Reset(properties: Option<Properties>)

  /** The manager's two registries, each a `HashSet`. */
  datatype Registry = Registry(refreshables: set<Participant>, stoppables: set<Participant>)

  /** `registerRefresh`: adds the participant to the refreshables. */
  function RegisterRefresh(reg: Registry, p: Participant): (r: Registry)
    ensures p in r.refreshables
    ensures forall q :: q != p ==> (q in r.refreshables <==> q in reg.refreshables)
    ensures r.stoppables == reg.stoppables
  {
    reg.(refreshables := reg.refreshables + {p})
  }

  /** `registerStop`: adds the participant to the stoppables. */
  function RegisterStop(reg: Registry, p: Participant): (r: Registry)
    ensures p in r.stoppables
    ensures forall q :: q != p ==> (q in r.stoppables <==> q in reg.stoppables)
    ensures r.refreshables == reg.refreshables
  {
    reg.(stoppables := reg.stoppables + {p})
  }

  /** Registering a participant already registered changes nothing, so
      registering twice is registering once. */
  lemma RegisterIdempotent(reg: Registry, p: Participant)
    ensures p in reg.refreshables ==> RegisterRefresh(reg, p) == reg
    ensures p in reg.stoppables ==> RegisterStop(reg, p) == reg
    ensures RegisterRefresh(RegisterRefresh(reg, p), p) == RegisterRefresh(reg, p)
    ensures RegisterStop(RegisterStop(reg, p), p) == RegisterStop(reg, p)
  {
    assert p in reg.refreshables ==> reg.refreshables + {p} == reg.refreshables;
    assert p in reg.stoppables ==> reg.stoppables + {p} == reg.stoppables;
  }

  /** The two registries do not interfere: registering for refresh and for
      stop commute, and each registration is seen only in its own set. */
  lemma RegistriesIndependent(reg: Registry, p: Participant, q: Participant)
    ensures RegisterStop(RegisterRefresh(reg, p), q) == RegisterRefresh(RegisterStop(reg, q), p)
    ensures RegisterStop(RegisterRefresh(reg, p), q).refreshables == RegisterRefresh(reg, p).refreshables
    ensures RegisterStop(RegisterRefresh(reg, p), q).stoppables == RegisterStop(reg, q).stoppables
  {
  }

  /** The calls a participant has received; none if it is not in the map. */
  function Received(calls: map<Participant, seq<Call>>, p: Participant): seq<Call> {
    if p in calls then calls[p] else []
  }

  /** The state of a log processor as the manager sees it: whether `stop` was
      called, and how many queued events it still has to write before it
      reports stopped. */
  datatype Processor = Processor(stopRequested: bool, backlog: nat)

  /** `isStopped`: stopping was asked for and nothing is left to write. */
  predicate IsStopped(s: Processor) {
    s.stopRequested && s.backlog == 0
  }

  /** A processor's state; one the map does not hold was never started. */
  function StateOf(procs: map<Participant, Processor>, p: Participant): Processor {
    if p in procs then procs[p] else Processor(false, 0)
  }

  /** Everything outside the manager that its operations act on: the calls
      each refreshable received and the state of each processor. */
  datatype Participants = Participants(calls: map<Participant, seq<Call>>, procs: map<Participant, Processor>)

  /** What a `forEach` that sends `c` to every participant of `targets` leaves
      behind, given the participants whose call throws. The loop runs in the
      set's (unspecified) order and stops at the first participant that
      throws; that participant has received the call and its exception is
      `thrown`. So: the loop stops early exactly when some target throws; each
      target has received the call once or not at all, and all of them have
      when nothing was thrown; no participant that throws has received it
      except the one whose exception escaped; no one else receives anything. */
  ghost predicate Delivered(targets: set<Participant>, throwing: set<Participant>, c: Call,
                            before: map<Participant, seq<Call>>, after: map<Participant, seq<Call>>,
                            thrown: Option<Participant>)
  {
    && (thrown.None? <==> targets * throwing == {})
    && (thrown.Some? ==> thrown.value in targets && thrown.value in throwing
                         && Received(after, thrown.value) == Received(before, thrown.value) + [c])
    && (forall p :: p in targets ==>
          Received(after, p) == Received(before, p) + [c] || Received(after, p) == Received(before, p))
    && (thrown.None? ==> forall p :: p in targets ==> Received(after, p) == Received(before, p) + [c])
    && (forall p :: p in throwing && thrown != Some(p) ==> Received(after, p) == Received(before, p))
    && (forall p :: p !in targets ==> Received(after, p) == Received(before, p))
  }

  /** Sends one call to the participants of `targets`, one after another,
      until one of them throws (`throwing` is the set of those whose call
      throws; what they do is outside the manager). */
  method Broadcast(targets: set<Participant>, throwing: set<Participant>,
                   calls: map<Participant, seq<Call>>, c: Call)
    returns (r: map<Participant, seq<Call>>, thrown: Option<Participant>)
    ensures Delivered(targets, throwing, c, calls, r, thrown)
  {
    r := calls;
    thrown := None;
    var todo := targets;
    while todo != {} && thrown.None?
      invariant todo <= targets
      invariant forall p :: p in targets && p !in todo ==> Received(r, p) == Received(calls, p) + [c]
      invariant forall p :: (p !in targets || p in todo) ==> Received(r, p) == Received(calls, p)
      invariant forall p :: p in targets && p !in todo && p in throwing ==> thrown == Some(p)
      invariant thrown.Some? ==> thrown.value in targets && thrown.value !in todo && thrown.value in throwing
      decreases |todo|
    {
      var p :| p in todo;
      r := r[p := Received(r, p) + [c]];
      todo := todo - {p};
      if p in throwing {
        thrown := Some(p);
      }
    }
    if thrown.None? {
      assert todo == {};
      assert forall p :: p in targets * throwing ==> thrown == Some(p);
    }
  }

  /** `refresh()`: the registered refreshables receive `refresh()` one by one
      until one throws; if none throws, every one of them has received exactly
      one call. Nobody else receives anything and no processor changes. */
  method Refresh(reg: Registry, throwing: set<Participant>, world: Participants)
    returns (r: Participants, thrown: Option<Participant>)
    ensures Delivered(reg.refreshables, throwing, Reload, world.calls, r.calls, thrown)
    ensures r.procs == world.procs
  {
    var calls;
    calls, thrown := Broadcast(reg.refreshables, throwing, world.calls, Reload);
    r := world.(calls := calls);
  }

  /** `refresh(properties)`: the registered refreshables receive
      `refresh(properties)`, all with the same value, one by one until one
      throws. Nobody else receives anything and no processor changes. */
  method RefreshWith(reg: Registry, properties: Option<Properties>, throwing: set<Participant>,
                     world: Participants)
    returns (r: Participants, thrown: Option<Participant>)
    ensures Delivered(reg.refreshables, throwing, Reset(properties), world.calls, r.calls, thrown)
    ensures r.procs == world.procs
  {
    var calls;
    calls, thrown := Broadcast(reg.refreshables, throwing, world.calls, Reset(properties));
    r := world.(calls := calls);
  }

  /** What `shutdown` does, in order: `stop` on a processor, or one poll of a
      processor's `isStopped`. */
  datatype Action = Stop(p: Participant) | Poll(p: Participant)

  /** No `stop` comes after a poll. */
  predicate StopsBeforePolls(trace: seq<Action>) {
    forall i, j :: 0 <= i < j < |trace| && trace[i].Poll? ==> trace[j].Poll?
  }

  /** The `stop` loop of `shutdown`: the registered stoppables are asked to
      stop one by one until one throws (`throwing` is the set of those whose
      `stop` throws). A `stop` that throws is taken to leave its processor as
      it was. */
  method StopAll(targets: set<Participant>, throwing: set<Participant>, procs: map<Participant, Processor>)
    returns (r: map<Participant, Processor>, trace: seq<Action>, thrown: Option<Participant>)
    ensures forall p :: p !in targets ==> StateOf(r, p) == StateOf(procs, p)
    ensures forall i :: 0 <= i < |trace| ==> trace[i].Stop? && trace[i].p in targets
    ensures forall p :: p in targets && thrown != Some(p) ==>
              || (Stop(p) in trace && StateOf(r, p) == StateOf(procs, p).(stopRequested := true))
              || (Stop(p) !in trace && StateOf(r, p) == StateOf(procs, p))
    ensures thrown.None? ==> forall p :: p in targets ==> Stop(p) in trace
    ensures thrown.Some? ==> && thrown.value in targets && thrown.value in throwing
                             && StateOf(r, thrown.value) == StateOf(procs, thrown.value)
                             && |trace| > 0 && trace[|trace| - 1] == Stop(thrown.value)
    ensures forall p :: p in throwing && thrown != Some(p) ==> Stop(p) !in trace
    ensures forall i, j :: 0 <= i < j < |trace| ==> trace[i] != trace[j]
  {
    r := procs;
    trace := [];
    thrown := None;
    var todo := targets;
    while todo != {} && thrown.None?
      invariant todo <= targets
      invariant forall p :: p !in targets ==> StateOf(r, p) == StateOf(procs, p)
      invariant forall i :: 0 <= i < |trace| ==> trace[i].Stop? && trace[i].p in targets && trace[i].p !in todo
      invariant forall i, j :: 0 <= i < j < |trace| ==> trace[i] != trace[j]
      invariant forall p :: p in targets && p !in todo && thrown != Some(p) ==>
                  Stop(p) in trace && StateOf(r, p) == StateOf(procs, p).(stopRequested := true)
      invariant forall p :: p in todo ==> StateOf(r, p) == StateOf(procs, p)
      invariant forall p :: p in targets && p !in todo && p in throwing ==> thrown == Some(p)
      invariant thrown.Some? ==> && thrown.value in targets && thrown.value !in todo && thrown.value in throwing
                                 && StateOf(r, thrown.value) == StateOf(procs, thrown.value)
                                 && |trace| > 0 && trace[|trace| - 1] == Stop(thrown.value)
      decreases |todo|
    {
      var p :| p in todo;
      trace := trace + [Stop(p)];
      todo := todo - {p};
      if p in throwing {
        thrown := Some(p);
      } else {
        r := r[p := StateOf(r, p).(stopRequested := true)];
      }
    }
  }

  /** Polls one processor until it reports stopped. Each poll that finds it
      still busy gives it the time to write one more queued event. */
  method AwaitStopped(p: Participant, procs: map<Participant, Processor>)
    returns (r: map<Participant, Processor>, polls: seq<Action>)
    requires StateOf(procs, p).stopRequested
    ensures IsStopped(StateOf(r, p))
    ensures forall q :: q != p ==> StateOf(r, q) == StateOf(procs, q)
    ensures forall i :: 0 <= i < |polls| ==> polls[i] == Poll(p)
    ensures |polls| == StateOf(procs, p).backlog + 1
  {
    r := procs;
    polls := [Poll(p)];
    while !IsStopped(StateOf(r, p))
      invariant StateOf(r, p).stopRequested
      invariant forall q :: q != p ==> StateOf(r, q) == StateOf(procs, q)
      invariant forall i :: 0 <= i < |polls| ==> polls[i] == Poll(p)
      invariant |polls| + StateOf(r, p).backlog == StateOf(procs, p).backlog + 1
      decreases StateOf(r, p).backlog
    {
      r := r[p := StateOf(r, p).(backlog := StateOf(r, p).backlog - 1)];
      polls := polls + [Poll(p)];
    }
  }

  /** The waiting half of `shutdown`: returns once every processor of
      `targets` reports stopped. A stopped processor stays stopped, so
      waiting for each in turn is waiting for all at once. */
  method AwaitAll(targets: set<Participant>, procs: map<Participant, Processor>)
    returns (r: map<Participant, Processor>, trace: seq<Action>)
    requires forall p :: p in targets ==> StateOf(procs, p).stopRequested
    ensures forall p :: p in targets ==> IsStopped(StateOf(r, p))
    ensures forall p :: p !in targets ==> StateOf(r, p) == StateOf(procs, p)
    ensures forall i :: 0 <= i < |trace| ==> trace[i].Poll? && trace[i].p in targets
  {
    r := procs;
    trace := [];
    var todo := targets;
    while todo != {}
      invariant todo <= targets
      invariant forall p :: p in targets ==> StateOf(r, p).stopRequested
      invariant forall p :: p in targets && p !in todo ==> IsStopped(StateOf(r, p))
      invariant forall p :: p !in targets ==> StateOf(r, p) == StateOf(procs, p)
      invariant forall i :: 0 <= i < |trace| ==> trace[i].Poll? && trace[i].p in targets
      decreases |todo|
    {
      var p :| p in todo;
      var polls;
      r, polls := AwaitStopped(p, r);
      trace := trace + polls;
      todo := todo - {p};
    }
  }

  /** `shutdown`: `stop` is called on the registered stoppables, at most once
      each, before any waiting starts. If none throws, the call returns only
      once every registered stoppable reports stopped. If one throws, its
      exception escapes before the wait, so no processor is polled: the
      stoppables asked before it have only their stop requested, and the
      thrower and the ones never asked are as they were. Processors that are
      not registered are not touched, and neither are the refreshables. */
  method Shutdown(reg: Registry, throwing: set<Participant>, world: Participants)
    returns (r: Participants, trace: seq<Action>, thrown: Option<Participant>)
    ensures thrown.None? <==> reg.stoppables * throwing == {}
    ensures thrown.None? ==> forall p :: p in reg.stoppables ==> IsStopped(StateOf(r.procs, p)) && Stop(p) in trace
    ensures thrown.Some? ==> && thrown.value in reg.stoppables && thrown.value in throwing
                             && |trace| > 0 && trace[|trace| - 1] == Stop(thrown.value)
                             && (forall i :: 0 <= i < |trace| ==> trace[i].Stop?)
                             && StateOf(r.procs, thrown.value) == StateOf(world.procs, thrown.value)
    ensures thrown.Some? ==> forall p :: p in reg.stoppables && thrown != Some(p) ==>
              || (Stop(p) in trace && StateOf(r.procs, p) == StateOf(world.procs, p).(stopRequested := true))
              || (Stop(p) !in trace && StateOf(r.procs, p) == StateOf(world.procs, p))
    ensures forall i, j :: 0 <= i < j < |trace| && trace[i].Stop? ==> trace[i] != trace[j]
    ensures forall p :: p !in reg.stoppables ==> StateOf(r.procs, p) == StateOf(world.procs, p)
    ensures forall i :: 0 <= i < |trace| ==> trace[i].p in reg.stoppables
    ensures StopsBeforePolls(trace)
    ensures r.calls == world.calls
  {
    var stopped, stops;
    stopped, stops, thrown := StopAll(reg.stoppables, throwing, world.procs);
    if thrown.Some? {
      assert thrown.value in reg.stoppables * throwing;
      r := world.(procs := stopped);
      trace := stops;
      return;
    }
    assert forall p :: p in reg.stoppables ==> p !in throwing;
    var done, polls := AwaitAll(reg.stoppables, stopped);
    trace := stops + polls;
    r := world.(procs := done);
    assert forall p :: p in reg.stoppables ==> Stop(p) in stops;
  }
}

=== FILE: native_logger_factory.dfy ===
/** `NativeLoggerFactory`: the per-level logger cache and the log service
    behind it. The factory is a value; an operation that changes it returns the
    new factory beside its result. Object identity of loggers and services is a
    serial number handed out by the factory. */
module NativeLoggerFactories {
  import opened Wrappers
  import opened Events
  import opened LogServiceManagers

  /** Every `Level` constant, as `EnumSet.allOf(Level.class)` lists them. */
  const AllLevels: set<Level> := {TRACE, DEBUG, INFO, WARN, ERROR, OFF}

  lemma AllLevelsComplete(l: Level)
    ensures l in AllLevels
  {
  }

  /** `DEFAULT_LOGGER_SEVERITY_LEVEL`. */
  const DefaultLoggerSeverityLevel: Level := INFO

  /** The name of `elf4j.Logger`, the default service access class. */
  const LoggerInterface: string := "elf4j.Logger"

  /** A `NativeLogger`: the declaring class it logs for, its level, and its
      identity. */
  datatype NativeLogger = NativeLogger(declaringClassName: string, level: Level, id: nat)

  /** Where a log service's configuration came from: loaded from the
      properties source, or set from given properties (`null` is `None`). */
  datatype Configuration = Loaded | Setting(properties: Option<Properties>)

  /** An `EventingLogService` built from a configuration; `id` is its
      identity. */
  datatype LogService = LogService(configuration: Configuration, id: nat)

  /** `ConfiguredLogServiceFactory`: the current service, and the number of
      services built so far (the next one's identity). */
  datatype ConfiguredLogServiceFactory = ConfiguredLogServiceFactory(logService: LogService, built: nat)

  datatype NativeLoggerFactory = NativeLoggerFactory(
    defaultLoggerLevel: Level,
    serviceAccessClass: string,
    logServiceFactory: ConfiguredLogServiceFactory,
    nativeLoggers: map<Level, map<string, NativeLogger>>,
    nextLoggerId: nat
  )

  /** What the factory keeps true: a cache map for every level; each cached
      logger carries the name it is cached under and the level of its map, and
      its identity was handed out before; the current service is the last one
      built. */
  ghost predicate Valid(f: NativeLoggerFactory) {
    && (forall l: Level :: l in f.nativeLoggers)
    && (forall l, n :: l in f.nativeLoggers && n in f.nativeLoggers[l] ==>
          && f.nativeLoggers[l][n].declaringClassName == n
          && f.nativeLoggers[l][n].level == l
          && f.nativeLoggers[l][n].id < f.nextLoggerId)
    && f.logServiceFactory.logService.id < f.logServiceFactory.built
  }

  /** The private `ConfiguredLogServiceFactory()` constructor: the first
      service, built by loading. */
  function NewConfiguredLogServiceFactory(): (r: ConfiguredLogServiceFactory)
    ensures r.logService.configuration == Loaded
    ensures r.logService.id < r.built
  {
    ConfiguredLogServiceFactory(LogService(Loaded, 0), 1)
  }

  /** The package-private constructor: an empty cache map for every level. */
  function Create(defaultLoggerLevel: Level, serviceAccessClass: string,
                  logServiceFactory: ConfiguredLogServiceFactory): (f: NativeLoggerFactory)
    requires logServiceFactory.logService.id < logServiceFactory.built
    ensures Valid(f)
    ensures forall l: Level :: f.nativeLoggers[l] == map[]
    ensures f.defaultLoggerLevel == defaultLoggerLevel && f.serviceAccessClass == serviceAccessClass
    ensures f.logServiceFactory == logServiceFactory
  {
    var f := NativeLoggerFactory(defaultLoggerLevel, serviceAccessClass, logServiceFactory,
                                 map l | l in AllLevels :: map[], 0);
    assert forall l: Level :: l in f.nativeLoggers by {
      forall l: Level ensures l in f.nativeLoggers {
        AllLevelsComplete(l);
      }
    }
    f
  }

  /** `NativeLoggerFactory(serviceAccessClass)`: default level INFO and a
      loading service factory. */
  function WithServiceAccessClass(serviceAccessClass: string): (f: NativeLoggerFactory)
    ensures Valid(f)
    ensures f.defaultLoggerLevel == INFO && f.serviceAccessClass == serviceAccessClass
    ensures f.logServiceFactory.logService.configuration == Loaded
    ensures forall l: Level :: f.nativeLoggers[l] == map[]
  {
    Create(DefaultLoggerSeverityLevel, serviceAccessClass, NewConfiguredLogServiceFactory())
  }

  /** `NativeLoggerFactory()`, the constructor `ServiceLoader` uses: the
      `Logger` interface is the service access class. */
  function Default(): (f: NativeLoggerFactory)
    ensures Valid(f)
    ensures f.defaultLoggerLevel == INFO && f.serviceAccessClass == LoggerInterface
    ensures forall l: Level :: f.nativeLoggers[l] == map[]
  {
    WithServiceAccessClass(LoggerInterface)
  }

  /** `getLogger(level, declaringClassName)`: the logger cached for the level
      and name, or else a new one with that name and level, which is then
      cached. The cache entry asked for is the only one that may change, and
      only by being added. */
  function GetLogger(f: NativeLoggerFactory, level: Level, declaringClassName: string)
    : (r: (NativeLogger, NativeLoggerFactory))
    requires Valid(f)
    ensures Valid(r.1)
    ensures r.0.declaringClassName == declaringClassName && r.0.level == level
    ensures declaringClassName in r.1.nativeLoggers[level] && r.1.nativeLoggers[level][declaringClassName] == r.0
    ensures declaringClassName in f.nativeLoggers[level] ==>
              r.0 == f.nativeLoggers[level][declaringClassName] && r.1 == f
    ensures declaringClassName !in f.nativeLoggers[level] ==> r.0.id == f.nextLoggerId
    ensures forall l, n :: (l != level || n != declaringClassName) ==>
              (n in r.1.nativeLoggers[l] <==> n in f.nativeLoggers[l])
    ensures forall l, n :: n in f.nativeLoggers[l] ==>
              n in r.1.nativeLoggers[l] && r.1.nativeLoggers[l][n] == f.nativeLoggers[l][n]
    ensures r.1.defaultLoggerLevel == f.defaultLoggerLevel && r.1.serviceAccessClass == f.serviceAccessClass
    ensures r.1.logServiceFactory == f.logServiceFactory
  {
    var cache := f.nativeLoggers[level];
    if declaringClassName in cache then (cache[declaringClassName], f)
    else
      var logger := NativeLogger(declaringClassName, level, f.nextLoggerId);
      var g := f.(nativeLoggers := f.nativeLoggers[level := cache[declaringClassName := logger]],
                  nextLoggerId := f.nextLoggerId + 1);
      (logger, g)
  }

  /** Asking twice for the same level and name gives the same logger, and the
      second call leaves the factory as the first left it. */
  lemma GetLoggerIdempotent(f: NativeLoggerFactory, level: Level, declaringClassName: string)
    requires Valid(f)
    ensures var (first, g) := GetLogger(f, level, declaringClassName);
            GetLogger(g, level, declaringClassName) == (first, g)
  {
    var (first, g) := GetLogger(f, level, declaringClassName);
    assert declaringClassName in g.nativeLoggers[level];
  }

  /** One name asked for at two levels gives two different loggers, each with
      its own level, and both stay cached. */
  lemma LevelsKeepSeparateLoggers(f: NativeLoggerFactory, a: Level, b: Level, declaringClassName: string)
    requires Valid(f) && a != b
    ensures var (x, g) := GetLogger(f, a, declaringClassName);
            var (y, h) := GetLogger(g, b, declaringClassName);
            && x != y
            && x.level == a && y.level == b
            && h.nativeLoggers[a][declaringClassName] == x
            && h.nativeLoggers[b][declaringClassName] == y
  {
    var (x, g) := GetLogger(f, a, declaringClassName);
    var (y, h) := GetLogger(g, b, declaringClassName);
    assert declaringClassName in g.nativeLoggers[a] && g.nativeLoggers[a][declaringClassName] == x;
  }

  /** `logger()`: the logger of the default level for the class that called the
      service access class. Locating that class on the stack is not modelled;
      its name is the parameter. */
  function Logger(f: NativeLoggerFactory, callerClassName: string): (r: (NativeLogger, NativeLoggerFactory))
    requires Valid(f)
    ensures Valid(r.1)
    ensures r.0.level == f.defaultLoggerLevel && r.0.declaringClassName == callerClassName
    ensures callerClassName in r.1.nativeLoggers[f.defaultLoggerLevel]
    ensures r.1.nativeLoggers[f.defaultLoggerLevel][callerClassName] == r.0
  {
    GetLogger(f, f.defaultLoggerLevel, callerClassName)
  }

  /** A factory built by a public constructor hands out INFO loggers. */
  lemma PublicConstructorsLogAtInfo(serviceAccessClass: string, callerClassName: string)
    ensures Logger(WithServiceAccessClass(serviceAccessClass), callerClassName).0.level == INFO
    ensures Logger(Default(), callerClassName).0.level == INFO
  {
  }

  /** `ConfiguredLogServiceFactory.reload`: a new service, built by loading. */
  function Reload(s: ConfiguredLogServiceFactory): (r: ConfiguredLogServiceFactory)
    requires s.logService.id < s.built
    ensures r.logService.configuration == Loaded
    ensures r.logService.id < r.built
    ensures r.logService.id != s.logService.id
  {
    ConfiguredLogServiceFactory(LogService(Loaded, s.built), s.built + 1)
  }

  /** `ConfiguredLogServiceFactory.reset`: a new service, built from the given
      properties. */
  function Reset(s: ConfiguredLogServiceFactory, properties: Option<Properties>): (r: ConfiguredLogServiceFactory)
    requires s.logService.id < s.built
    ensures r.logService.configuration == Setting(properties)
    ensures r.logService.id < r.built
    ensures r.logService.id != s.logService.id
  {
    ConfiguredLogServiceFactory(LogService(Setting(properties), s.built), s.built + 1)
  }

  /** `getLogService`. */
  function GetLogService(f: NativeLoggerFactory): LogService {
    f.logServiceFactory.logService
  }

  /** The factory as a refreshable: `refresh()` reloads the service and
      `refresh(properties)` resets it from the properties. Either way the
      service is a new one and the logger cache is left as it was. */
  function Refresh(f: NativeLoggerFactory, call: Call): (r: NativeLoggerFactory)
    requires Valid(f)
    ensures Valid(r)
    ensures call.Reload? ==> GetLogService(r).configuration == Loaded
    ensures call.Reset? ==> GetLogService(r).configuration == Setting(call.properties)
    ensures GetLogService(r).id != GetLogService(f).id
    ensures r.nativeLoggers == f.nativeLoggers && r.nextLoggerId == f.nextLoggerId
    ensures r.defaultLoggerLevel == f.defaultLoggerLevel && r.serviceAccessClass == f.serviceAccessClass
  {
    match call
    case Reload => f.(logServiceFactory := Reload(f.logServiceFactory))
    case Reset(properties) => f.(logServiceFactory := Reset(f.logServiceFactory, properties))
  }

  /** A refresh does not disturb the cache: a logger handed out before it is
      the one handed out after it. */
  lemma RefreshKeepsLoggers(f: NativeLoggerFactory, call: Call, level: Level, declaringClassName: string)
    requires Valid(f)
    ensures var (before, g) := GetLogger(f, level, declaringClassName);
            GetLogger(Refresh(g, call), level, declaringClassName).0 == before
  {
    var (before, g) := GetLogger(f, level, declaringClassName);
    assert Refresh(g, call).nativeLoggers == g.nativeLoggers;
  }
}

=== FILE: text.dfy ===
/** The few `java.lang.String` operations the pattern elements rely on:
    `trim`, `split(",")`, `toUpperCase` and the decimal rendering of a `long`. */
module Text {

  // ---------------------------------------------------------------------------
  // String.trim
  // ---------------------------------------------------------------------------

  /** `String.trim` treats every character up to U+0020 as space. */
  predicate IsTrimmable(c: char) {
    c <= ' '
  }

  predicate AllTrimmable(s: string) {
    forall i :: 0 <= i < |s| ==> IsTrimmable(s[i])
  }

  /** The length of the leading run of trimmable characters. */
  function LeadingSpace(s: string): (n: nat)
    ensures n <= |s|
    ensures AllTrimmable(s[..n])
    ensures n < |s| ==> !IsTrimmable(s[n])
    ensures AllTrimmable(s) ==> n == |s|
  {
    if |s| > 0 && IsTrimmable(s[0]) then
      var n := 1 + LeadingSpace(s[1..]);
      assert s[..n] == [s[0]] + s[1..][..n - 1];
      n
    else
      0
  }

  /** The length of the trailing run of trimmable characters. */
  function TrailingSpace(s: string): (n: nat)
    ensures n <= |s|
    ensures AllTrimmable(s[|s| - n..])
    ensures n < |s| ==> !IsTrimmable(s[|s| - n - 1])
    ensures AllTrimmable(s) ==> n == |s|
  {
    if |s| > 0 && IsTrimmable(s[|s| - 1]) then
      var init := s[..|s| - 1];
      var n := 1 + TrailingSpace(init);
      assert s[|s| - n..] == init[|init| - (n - 1)..] + [s[|s| - 1]];
      assert AllTrimmable(s) ==> AllTrimmable(init);
      n
    else
      0
  }

  /** `String.trim`: the result neither starts nor ends with space, a string
      that already does not is left as it is, and an all-space string trims to
      nothing. */
  function Trim(s: string): (r: string)
    ensures r == [] || (!IsTrimmable(r[0]) && !IsTrimmable(r[|r| - 1]))
    ensures (s == [] || (!IsTrimmable(s[0]) && !IsTrimmable(s[|s| - 1]))) ==> r == s
    ensures AllTrimmable(s) ==> r == []
  {
    var t := s[LeadingSpace(s)..];
    t[..|t| - TrailingSpace(t)]
  }

  /** Trimming only removes space, and only from the two ends. */
  lemma TrimKeepsMiddle(s: string)
    ensures exists before, after :: AllTrimmable(before) && AllTrimmable(after) && s == before + Trim(s) + after
  {
    var before, after := TrimmedAway(s);
  }

  /** What trimming removes from each end of `s`. */
  lemma TrimmedAway(s: string) returns (before: string, after: string)
    ensures AllTrimmable(before) && AllTrimmable(after)
    ensures s == before + Trim(s) + after
  {
    var n := LeadingSpace(s);
    var t := s[n..];
    var m := TrailingSpace(t);
    var k := n + (|t| - m);
    SlicesOfSuffix(s, n, |t| - m);
    Concat3(s, n, k);
    before := s[..n];
    after := s[k..];
  }

  lemma Concat3(s: string, n: nat, k: nat)
    requires n <= k <= |s|
    ensures s == s[..n] + s[n..k] + s[k..]
  {
  }

  lemma SlicesOfSuffix(s: string, n: nat, j: nat)
    requires n + j <= |s|
    ensures s[n..][..j] == s[n..n + j] && s[n..][j..] == s[n + j..]
  {
  }

  // ---------------------------------------------------------------------------
  // String.split(",")
  // ---------------------------------------------------------------------------

  /** Every comma-separated piece of `s`, empty ones included. */
  function Pieces(s: string): (r: seq<string>)
    ensures |r| >= 1
    ensures forall i :: 0 <= i < |r| ==> ',' !in r[i]
  {
    if s == [] then
      [[]]
    else
      var rest := Pieces(s[1..]);
      if s[0] == ',' then [[]] + rest else [[s[0]] + rest[0]] + rest[1..]
  }

  /** The pieces put back together with commas between them. */
  function Join(ps: seq<string>): string
    requires |ps| >= 1
  {
    if |ps| == 1 then ps[0] else ps[0] + "," + Join(ps[1..])
  }

  /** Splitting then joining gives the original string back. */
  lemma {:induction false} JoinPieces(s: string)
    ensures Join(Pieces(s)) == s
  {
    if s != [] {
      var rest := Pieces(s[1..]);
      JoinPieces(s[1..]);
      if s[0] == ',' {
        assert Pieces(s) == [[]] + rest;
        assert Join(Pieces(s)) == [] + "," + Join(rest);
      } else if |rest| == 1 {
        assert Pieces(s) == [[s[0]] + rest[0]];
      } else {
        var ps := [[s[0]] + rest[0]] + rest[1..];
        assert Pieces(s) == ps;
        assert ps[1..] == rest[1..];
        assert Join(rest) == rest[0] + "," + Join(rest[1..]);
        assert Join(ps) == [s[0]] + rest[0] + "," + Join(rest[1..]);
      }
    }
  }

  /** A comma-free prefix lengthens the first piece and leaves the others alone. */
  lemma {:induction false} PiecesOfPrefixed(p: string, s: string)
    requires ',' !in p
    ensures Pieces(p + s) == [p + Pieces(s)[0]] + Pieces(s)[1..]
  {
    if p != [] {
      assert (p + s)[1..] == p[1..] + s;
      assert (p + s)[0] == p[0];
      PiecesOfPrefixed(p[1..], s);
      assert [p[0]] + (p[1..] + Pieces(s)[0]) == p + Pieces(s)[0];
    } else {
      assert p + s == s;
      assert p + Pieces(s)[0] == Pieces(s)[0];
      assert Pieces(s) == [Pieces(s)[0]] + Pieces(s)[1..];
    }
  }

  /** Joining comma-free pieces then splitting gives the pieces back. */
  lemma {:induction false} PiecesJoin(ps: seq<string>)
    requires |ps| >= 1
    requires forall i :: 0 <= i < |ps| ==> ',' !in ps[i]
    ensures Pieces(Join(ps)) == ps
  {
    if |ps| == 1 {
      PiecesOfPrefixed(ps[0], []);
      assert ps[0] + [] == ps[0];
    } else {
      var tail := Join(ps[1..]);
      PiecesJoin(ps[1..]);
      assert Join(ps) == ps[0] + ("," + tail);
      PiecesOfPrefixed(ps[0], "," + tail);
      assert ("," + tail)[1..] == tail;
      assert Pieces("," + tail) == [[]] + ps[1..];
      assert ps[0] + [] == ps[0];
    }
  }

  /** `split` without a limit discards the empty pieces at the end. */
  function DropTrailingEmpty(ps: seq<string>): (r: seq<string>)
    ensures |r| <= |ps| && r == ps[..|r|]
    ensures r == [] || r[|r| - 1] != []
    ensures forall k :: |r| <= k < |ps| ==> ps[k] == []
  {
    if ps == [] then []
    else if ps[|ps| - 1] == [] then DropTrailingEmpty(ps[..|ps| - 1])
    else ps
  }

  /** `String.split(",")`: a string without a comma is its own only piece;
      otherwise the pieces between commas with the trailing empty ones dropped. */
  function JavaSplit(s: string): (r: seq<string>)
    ensures forall i :: 0 <= i < |r| ==> ',' !in r[i]
    ensures ',' !in s ==> r == [s]
    ensures ',' in s ==> |r| <= |Pieces(s)| && r == Pieces(s)[..|r|] && (r == [] || r[|r| - 1] != [])
    ensures ',' in s ==> forall k :: |r| <= k < |Pieces(s)| ==> Pieces(s)[k] == []
  {
    if ',' !in s then [s] else DropTrailingEmpty(Pieces(s))
  }

  // ---------------------------------------------------------------------------
  // String.toUpperCase
  // ---------------------------------------------------------------------------

  /** The default locale's casing rules that matter here: the Turkic languages
      upper-case 'i' to a dotted capital I. */
  datatype Locale = Root | Turkic

  predicate IsAsciiLower(c: char) {
    'a' <= c <= 'z'
  }

  predicate IsAsciiUpper(c: char) {
    'A' <= c <= 'Z'
  }

  /** `Character.toUpperCase` on the characters that can upper-case into an
      ASCII capital: the ASCII small letters and the dotless small i (U+0131). */
  function UpperChar(c: char, locale: Locale): char {
    if c == 'i' && locale == Turkic then 'İ'
    else if IsAsciiLower(c) then (c as int - 32) as char
    else if c == 'ı' then 'I'
    else c
  }

  function ToUpper(s: string, locale: Locale): (r: string)
    ensures |r| == |s|
    ensures forall i :: 0 <= i < |r| ==> r[i] == UpperChar(s[i], locale)
  {
    seq(|s|, i requires 0 <= i < |s| => UpperChar(s[i], locale))
  }

  /** `c` is the capital `u`, its small form, or (for I) the dotless small i. */
  predicate IsCaseOf(c: char, u: char)
    requires IsAsciiUpper(u)
  {
    c == u || c == (u as int + 32) as char || (u == 'I' && c == 'ı')
  }

  /** `s` spells the capitalised word `w` in some mixture of letter cases. */
  predicate SpellsIgnoringCase(s: string, w: string)
    requires forall i :: 0 <= i < |w| ==> IsAsciiUpper(w[i])
  {
    |s| == |w| && forall i :: 0 <= i < |s| ==> IsCaseOf(s[i], w[i])
  }

  /** In the root locale, upper-casing yields a capitalised word exactly when the
      input spells that word in some mixture of cases. */
  lemma UpperCaseMatches(s: string, w: string)
    requires forall i :: 0 <= i < |w| ==> IsAsciiUpper(w[i])
    ensures ToUpper(s, Root) == w <==> SpellsIgnoringCase(s, w)
  {
    var u := ToUpper(s, Root);
    if u == w {
      forall i | 0 <= i < |s| ensures IsCaseOf(s[i], w[i]) {
        assert UpperChar(s[i], Root) == w[i];
      }
    }
    if SpellsIgnoringCase(s, w) {
      forall i | 0 <= i < |s| ensures u[i] == w[i] {
        assert IsCaseOf(s[i], w[i]);
      }
    }
  }

  // ---------------------------------------------------------------------------
  // Long.toString
  // ---------------------------------------------------------------------------

  predicate IsDigit(c: char) {
    '0' <= c <= '9'
  }

  predicate AllDigits(s: string) {
    forall i :: 0 <= i < |s| ==> IsDigit(s[i])
  }

  function DigitChar(d: nat): (c: char)
    requires d < 10
    ensures IsDigit(c)
  {
    ('0' as int + d) as char
  }

  function DigitValue(c: char): (d: nat)
    requires IsDigit(c)
    ensures d < 10
  {
    c as int - '0' as int
  }

  /** The decimal digits of `n`, most significant first, without leading zeros. */
  function NatToDecimal(n: nat): (r: string)
    ensures |r| >= 1 && AllDigits(r)
    ensures r[0] == '0' ==> n == 0 && r == "0"
  {
    if n < 10 then [DigitChar(n)] else NatToDecimal(n / 10) + [DigitChar(n % 10)]
  }

  /** The number a string of decimal digits denotes. */
  function DecimalValue(s: string): nat
    requires AllDigits(s)
  {
    if s == [] then 0 else DecimalValue(s[..|s| - 1]) * 10 + DigitValue(s[|s| - 1])
  }

  lemma {:induction false} DecimalRoundTrip(n: nat)
    ensures DecimalValue(NatToDecimal(n)) == n
  {
    var r := NatToDecimal(n);
    if n >= 10 {
      DecimalRoundTrip(n / 10);
      assert r[..|r| - 1] == NatToDecimal(n / 10);
    }
  }

  /** A well-formed `Long.toString` output: an optional minus sign, then digits. */
  predicate IsDecimal(s: string) {
    if |s| > 0 && s[0] == '-' then |s| > 1 && AllDigits(s[1..]) else |s| > 0 && AllDigits(s)
  }

  /** The number a well-formed decimal denotes (`Long.parseLong`). */
  function ParseDecimal(s: string): int
    requires IsDecimal(s)
  {
    if s[0] == '-' then -(DecimalValue(s[1..]) as int) else DecimalValue(s)
  }

  /** Digits without a leading zero, except for the number zero itself. */
  predicate NoLeadingZero(d: string) {
    |d| >= 1 && AllDigits(d) && (d[0] == '0' ==> d == "0")
  }

  /** The text `Long.toString` produces: digits without leading zeros, after a
      minus sign only for a negative number (so never `-0`). */
  predicate IsCanonicalDecimal(s: string) {
    if |s| > 0 && s[0] == '-' then NoLeadingZero(s[1..]) && s[1] != '0' else NoLeadingZero(s)
  }

  /** `Long.toString`: the canonical decimal text that parses back to the
      number. */
  function LongToDecimal(x: int): (r: string)
    ensures IsDecimal(r) && ParseDecimal(r) == x
    ensures IsCanonicalDecimal(r)
  {
    if x < 0 then
      DecimalRoundTrip(-x);
      assert ("-" + NatToDecimal(-x))[1..] == NatToDecimal(-x);
      "-" + NatToDecimal(-x)
    else
      DecimalRoundTrip(x);
      NatToDecimal(x)
  }

  /** A digit string whose first digit is not zero denotes a positive number. */
  lemma {:induction false} LeadingDigitPositive(d: string)
    requires |d| >= 1 && AllDigits(d) && d[0] != '0'
    ensures DecimalValue(d) >= 1
  {
    if |d| > 1 {
      LeadingDigitPositive(d[..|d| - 1]);
    }
  }

  /** Digits without leading zeros are the digits `NatToDecimal` writes for
      the number they denote. */
  lemma {:induction false} CanonicalDigits(d: string)
    requires NoLeadingZero(d)
    ensures NatToDecimal(DecimalValue(d)) == d
  {
    if |d| > 1 {
      var init := d[..|d| - 1];
      LeadingDigitPositive(init);
      CanonicalDigits(init);
      var n := DecimalValue(d);
      assert n / 10 == DecimalValue(init) && n % 10 == DigitValue(d[|d| - 1]);
      assert d == init + [d[|d| - 1]];
    }
  }

  /** `Long.toString` is the only canonical text for its number: any canonical
      decimal that parses to `x` is `LongToDecimal(x)`. */
  lemma LongToDecimalUnique(s: string, x: int)
    requires IsCanonicalDecimal(s) && ParseDecimal(s) == x
    ensures s == LongToDecimal(x)
  {
    if s[0] == '-' {
      LeadingDigitPositive(s[1..]);
      CanonicalDigits(s[1..]);
      assert s == "-" + s[1..];
    } else {
      CanonicalDigits(s);
    }
  }
}

=== FILE: thread_element.dfy ===
/** `ThreadElement`: the calling thread's id or name. */
module ThreadElements {
  import opened Wrappers
  import opened Errors
  import opened Text
  import opened Events

  /** `ThreadElement.DisplayOption`. */
  datatype DisplayOption = ID | NAME

  datatype ThreadElement = ThreadElement(threadDisplayOption: DisplayOption)

  /** `DisplayOption.valueOf`: the constant spelled exactly so, or an
      `IllegalArgumentException`. */
  function ValueOf(name: string): (r: Result<DisplayOption, Error>)
    ensures r == Success(ID) <==> name == "ID"
    ensures r == Success(NAME) <==> name == "NAME"
    ensures r.Failure? ==> r.error == NoEnumConstant(name)
  {
    if name == "ID" then Success(ID)
    else if name == "NAME" then Success(NAME)
    else Failure(NoEnumConstant(name))
  }

  /** `from` exactly as written: the display option is upper-cased with the
      JVM's default locale and looked up as an enum constant; no option means
      NAME. */
  function FromInLocale(displayOption: Option<string>, locale: Locale): (r: Result<ThreadElement, Error>)
    ensures displayOption.None? ==> r == Success(ThreadElement(NAME))
    ensures displayOption.Some? ==> (r == Success(ThreadElement(ID)) <==> ToUpper(displayOption.value, locale) == "ID")
    ensures displayOption.Some? ==>
              (r == Success(ThreadElement(NAME)) <==> ToUpper(displayOption.value, locale) == "NAME")
    ensures r.Failure? ==> displayOption.Some? && r.error == NoEnumConstant(ToUpper(displayOption.value, locale))
  {
    match displayOption
    case None => Success(ThreadElement(NAME))
    case Some(option) =>
      var v :- ValueOf(ToUpper(option, locale));
      Success(ThreadElement(v))
  }

  /** Under a Turkic default locale `"id".toUpperCase()` is `"İD"` (dotted capital
      I), which names no constant, so the documented option `id` is refused. */
  lemma TurkicLocaleRejectsId(option: string)
    requires option == "id"
    ensures FromInLocale(Some(option), Turkic) == Failure(NoEnumConstant("İD"))
  {
    assert ToUpper(option, Turkic) == "İD";
  }

  /** `from` with a locale-independent upper-casing (what the code means, and what
      it does in the root locale): `id` or `name` in any mixture of letter cases
      selects ID or NAME, no option selects NAME, and anything else is
      refused. */
  function From(displayOption: Option<string>): (r: Result<ThreadElement, Error>)
    ensures displayOption.None? ==> r == Success(ThreadElement(NAME))
    ensures displayOption.Some? ==>
              (r == Success(ThreadElement(ID)) <==> SpellsIgnoringCase(displayOption.value, "ID"))
    ensures displayOption.Some? ==>
              (r == Success(ThreadElement(NAME)) <==> SpellsIgnoringCase(displayOption.value, "NAME"))
    ensures r.Failure? ==> displayOption.Some? && r.error == NoEnumConstant(ToUpper(displayOption.value, Root))
  {
    match displayOption
    case None => FromInLocale(displayOption, Root)
    case Some(option) =>
      UpperCaseMatches(option, "ID");
      UpperCaseMatches(option, "NAME");
      FromInLocale(displayOption, Root)
  }

  /** In the root locale the code as written and the corrected `from` agree. */
  lemma FromAgreesInRootLocale(displayOption: Option<string>)
    ensures FromInLocale(displayOption, Root) == From(displayOption)
  {
  }

  /** The thread element never needs the caller's stack frame. */
  function IncludeCallerDetail(e: ThreadElement): (r: bool)
    ensures !r
  {
    false
  }

  /** `render`: the caller thread must be present (`Objects.requireNonNull`);
      then its id in decimal (ID) or its name (NAME) is appended, and nothing
      else. */
  function Render(e: ThreadElement, event: LogEvent, target: string): (r: Result<string, Error>)
    ensures r.Failure? <==> event.callerThread.None?
    ensures r.Failure? ==> r.error.NullPointer?
    ensures r.Success? ==> |target| <= |r.value| && r.value[..|target|] == target
    ensures r.Success? && e.threadDisplayOption == ID ==>
              var appended := r.value[|target|..];
              && IsDecimal(appended) && ParseDecimal(appended) == event.callerThread.value.id as int
              && IsCanonicalDecimal(appended)
    ensures r.Success? && e.threadDisplayOption == NAME ==>
              r.value[|target|..] == event.callerThread.value.name
  {
    match event.callerThread
    case None => Failure(NullPointer("callerThread"))
    case Some(thread) =>
      var appended := if e.threadDisplayOption == ID then LongToDecimal(thread.id as int) else thread.name;
      assert (target + appended)[|target|..] == appended;
      Success(target + appended)
  }
}

=== FILE: utf8.dfy ===
/** UTF-8, as the JSON serialisers write text out and as
    `ByteArrayOutputStream.toString("UTF-8")` reads it back. A Dafny `char` is a
    Unicode scalar value, so every character has an encoding. */
module Utf8 {
  import opened Wrappers

  newtype Byte = x: int | 0 <= x < 256

  /** A continuation byte `10xxxxxx` carrying six bits. */
  function Cont(bits: int): Byte
    requires 0 <= bits < 64
  {
    (0x80 + bits) as Byte
  }

  predicate IsCont(b: Byte) {
    0x80 <= b < 0xC0
  }

  /** Number of bytes in the encoding of `c`. */
  function Width(c: char): (n: nat)
    ensures 1 <= n <= 4
  {
    var v := c as int;
    if v < 0x80 then 1 else if v < 0x800 then 2 else if v < 0x1_0000 then 3 else 4
  }

  /** The encoding of one character: one to four bytes, shortest form. */
  function EncodeChar(c: char): (r: seq<Byte>)
    ensures |r| == Width(c)
    ensures (c as int < 0x80) <==> r[0] < 0x80
    ensures forall i :: 1 <= i < |r| ==> IsCont(r[i])
  {
    var v := c as int;
    if v < 0x80 then [v as Byte]
    else if v < 0x800 then [(0xC0 + v / 64) as Byte, Cont(v % 64)]
    else if v < 0x1_0000 then [(0xE0 + v / 4096) as Byte, Cont(v / 64 % 64), Cont(v % 64)]
    else [(0xF0 + v / 262144) as Byte, Cont(v / 4096 % 64), Cont(v / 64 % 64), Cont(v % 64)]
  }

  /** The encoding of a string: its characters' encodings, in order. */
  function Encode(s: string): (r: seq<Byte>)
    ensures |r| >= |s|
  {
    if s == [] then [] else EncodeChar(s[0]) + Encode(s[1..])
  }

  /** A scalar value as a character, if it is one. */
  function ToChar(v: int): Option<char> {
    if 0 <= v < 0xD800 || 0xE000 <= v < 0x11_0000 then Some(v as char) else None
  }

  /** The scalar value encoded at the head of `b` and the encoding's width, or
      nothing when the head is not a lead byte followed by enough continuation
      bytes. */
  function ReadScalar(b: seq<Byte>): (r: Option<(int, nat)>)
    requires |b| >= 1
    ensures r.Some? ==> 1 <= r.value.1 <= |b|
  {
    var b0 := b[0] as int;
    if b0 < 0x80 then Some((b0, 1))
    else if 0xC0 <= b0 < 0xE0 && |b| >= 2 && IsCont(b[1]) then
      Some(((b0 - 0xC0) * 64 + (b[1] as int - 0x80), 2))
    else if 0xE0 <= b0 < 0xF0 && |b| >= 3 && IsCont(b[1]) && IsCont(b[2]) then
      Some(((b0 - 0xE0) * 4096 + (b[1] as int - 0x80) * 64 + (b[2] as int - 0x80), 3))
    else if 0xF0 <= b0 < 0xF8 && |b| >= 4 && IsCont(b[1]) && IsCont(b[2]) && IsCont(b[3]) then
      Some(((b0 - 0xF0) * 262144 + (b[1] as int - 0x80) * 4096 + (b[2] as int - 0x80) * 64 + (b[3] as int - 0x80), 4))
    else None
  }

  /** Reads the character at the head of `b` and its width, or nothing when the
      head is not a lead byte with its continuation bytes, or names no scalar
      value. Overlong forms are not rejected (C0 80 reads as U+0000); they never
      occur in the output of `Encode`, the only input this model decodes. */
  function DecodeFirst(b: seq<Byte>): (r: Option<(char, nat)>)
    requires |b| >= 1
    ensures r.Some? ==> 1 <= r.value.1 <= |b|
  {
    match ReadScalar(b)
    case None => None
    case Some((v, n)) =>
      match ToChar(v)
      case None => None
      case Some(c) => Some((c, n))
  }

  /** The replacement character a decoder emits for malformed input. */
  const Replacement: char := '\U{FFFD}'

  /** Decodes a byte sequence as Java's UTF-8 decoder does for the output of
      `Encode`; a byte at which `DecodeFirst` reads nothing is replaced by
      U+FFFD. */
  function Decode(b: seq<Byte>): string
    decreases |b|
  {
    if b == [] then []
    else match DecodeFirst(b)
      case None => [Replacement] + Decode(b[1..])
      case Some((c, n)) => [c] + Decode(b[n..])
  }

  /** Reading a character's encoding gives the character back, whatever follows. */
  lemma DecodeFirstOfEncodeChar(c: char, rest: seq<Byte>)
    ensures DecodeFirst(EncodeChar(c) + rest) == Some((c, Width(c)))
  {
    ReadScalarOfEncodeChar(c, rest);
  }

  lemma ReadScalarOfEncodeChar(c: char, rest: seq<Byte>)
    ensures ReadScalar(EncodeChar(c) + rest) == Some((c as int, Width(c)))
  {
    var v := c as int;
    if v < 0x80 {
    } else if v < 0x800 {
      ReadTwo(v, EncodeChar(c) + rest);
    } else if v < 0x1_0000 {
      ReadThree(v, EncodeChar(c) + rest);
    } else {
      ReadFour(v, EncodeChar(c) + rest);
    }
  }

  lemma ReadTwo(v: int, b: seq<Byte>)
    requires 0x80 <= v < 0x800 && |b| >= 2
    requires b[0] as int == 0xC0 + v / 64 && b[1] == Cont(v % 64)
    ensures ReadScalar(b) == Some((v, 2))
  {
  }

  lemma ReadThree(v: int, b: seq<Byte>)
    requires 0x800 <= v < 0x1_0000 && |b| >= 3
    requires b[0] as int == 0xE0 + v / 4096 && b[1] == Cont(v / 64 % 64) && b[2] == Cont(v % 64)
    ensures ReadScalar(b) == Some((v, 3))
  {
    assert v / 64 == v / 4096 * 64 + v / 64 % 64;
  }

  lemma ReadFour(v: int, b: seq<Byte>)
    requires 0x1_0000 <= v < 0x11_0000 && |b| >= 4
    requires b[0] as int == 0xF0 + v / 262144 && b[1] == Cont(v / 4096 % 64)
    requires b[2] == Cont(v / 64 % 64) && b[3] == Cont(v % 64)
    ensures ReadScalar(b) == Some((v, 4))
  {
    assert v / 64 == v / 4096 * 64 + v / 64 % 64;
    assert v / 4096 == v / 262144 * 64 + v / 4096 % 64;
  }

  /** Decoding undoes encoding. */
  lemma {:induction false} DecodeEncode(s: string)
    ensures Decode(Encode(s)) == s
  {
    if s != [] {
      var b := Encode(s);
      assert b == EncodeChar(s[0]) + Encode(s[1..]);
      DecodeFirstOfEncodeChar(s[0], Encode(s[1..]));
      assert b[Width(s[0])..] == Encode(s[1..]);
      DecodeEncode(s[1..]);
      assert [s[0]] + s[1..] == s;
    }
  }

  /** Text made of ASCII characters only. */
  predicate IsAscii(s: string) {
    forall i :: 0 <= i < |s| ==> s[i] as int < 0x80
  }

  /** ASCII text encodes byte for byte. */
  lemma {:induction false} EncodeAscii(s: string)
    requires IsAscii(s)
    ensures |Encode(s)| == |s|
    ensures forall i :: 0 <= i < |s| ==> Encode(s)[i] as int == s[i] as int
  {
    if s != [] {
      EncodeAscii(s[1..]);
      assert Encode(s) == [s[0] as int as Byte] + Encode(s[1..]);
    }
  }

  /** Text with a character beyond ASCII encodes to more bytes than it has
      characters. */
  lemma {:induction false} EncodeNonAsciiLonger(s: string)
    requires !IsAscii(s)
    ensures |Encode(s)| > |s|
  {
    assert s != [];
    if s[0] as int >= 0x80 {
      assert |EncodeChar(s[0])| >= 2;
    } else {
      assert !IsAscii(s[1..]) by {
        var i :| 0 <= i < |s| && s[i] as int >= 0x80;
        assert s[1..][i - 1] == s[i];
      }
      EncodeNonAsciiLonger(s[1..]);
    }
  }
}

=== FILE: verbatim_element.dfy ===
/** `VerbatimElement`: literal pattern text, rendered as it is. */
module VerbatimElements {
  import opened Events

  datatype VerbatimElement = VerbatimElement(text: string)

  /** `from`: the pattern segment becomes the element's text unchanged. */
  function From(patternSegment: string): (r: VerbatimElement)
    ensures r.text == patternSegment
  {
    VerbatimElement(patternSegment)
  }

  /** Literal text never needs the caller's stack frame. */
  function IncludeCallerDetail(e: VerbatimElement): (r: bool)
    ensures !r
  {
    false
  }

  /** `render`: appends the text to the target; the target so far is kept and
      nothing but the text is added. The event is not consulted. */
  function Render(e: VerbatimElement, event: LogEvent, target: string): (r: string)
    ensures |r| == |target| + |e.text|
    ensures r[..|target|] == target
    ensures r[|target|..] == e.text
  {
    target + e.text
  }

  /** Rendering a segment read by `from` reproduces the segment. */
  lemma RenderFromRoundTrip(patternSegment: string, event: LogEvent, target: string)
    ensures Render(From(patternSegment), event, target) == target + patternSegment
  {
  }

  /** Two different events render identically. */
  lemma RenderIgnoresEvent(e: VerbatimElement, a: LogEvent, b: LogEvent, target: string)
    ensures Render(e, a, target) == Render(e, b, target)
  {
  }

  /** The element is immutable: rendering it twice appends its text twice. */
  lemma RenderTwice(e: VerbatimElement, event: LogEvent, target: string)
    ensures Render(e, event, Render(e, event, target)) == target + e.text + e.text
  {
  }
}

=== FILE: wrappers.dfy ===
/** Optional values and results: the stand-ins for Java's nullable references,
    `Optional` and thrown exceptions. */
module Wrappers {

  /** A value that may be missing (a Java `null` or an empty `Optional`). */
  datatype Option<+T> = None | Some(value: T) {

    /** The value, or `default` when it is missing. */
    function GetOr(default: T): T {
      match this
      case Some(v) => v
      case None => default
    }
  }

  /** Either a value or the exception that the Java code would throw instead. */
  datatype Result<+R, +E> = Success(value: R) | Failure(error: E) {

    predicate IsFailure() {
      Failure?
    }

    function PropagateFailure<U>(): Result<U, E>
      requires Failure?
    {
      Failure(error)
    }

    function Extract(): R
      requires Success?
    {
      value
    }
  }
}

/** The exceptions the modelled code throws, by Java class. */
module Errors {

  datatype Error =
      /** `java.util.NoSuchElementException` */
    | NoSuchElement(message: string)
      /** `IllegalArgumentException` from `Enum.valueOf`: no constant with this name */
    | NoEnumConstant(name: string)
      /** `IllegalArgumentException` from a JSON element's `from`: the option set holds an unknown name */
    | InvalidDisplayOptions(options: set<string>)
      /** `IllegalArgumentException` from a JSON element's `from`: the segment is not of JSON type */
    | NotJsonSegment(segment: string)
      /** `NullPointerException` from `Objects.requireNonNull` */
    | NullPointer(what: string)
      /** `UncheckedIOException` wrapping an `IOException` of an output stream */
    | UncheckedIO
}
